=== FILE: README.md ===
# Trap registry and trap redirection of the Dyninst FreeBSD runtime

This project models, in Dafny, the part of the Dyninst runtime library for
FreeBSD/amd64 that redirects a trapped instruction into its instrumentation.
It covers four parts.

- **Bit sets.** `all_headers_current` and `all_headers_last` are arrays of 17
  32-bit words with one bit per registry slot (512 slots). `set_bit`,
  `clear_bitmask`, `get_next_free_bitmask` and `get_next_set_bitmask` act on
  them in place (`bitmask.dfy`, module `Bitmask`).
- **Registry refresh.** `parse_libs` walks the loader's list of modules. For
  each module, `parse_link_map` looks for the DT_DYNINST entry before the
  DT_NULL terminator of its dynamic section and checks the signature of the
  trap mapping header it points at. On first sighting it relocates the
  header's entries by the module's load bias, computes `low_entry` and
  `high_entry`, and gives the header the lowest slot that is free in `last`.
  A header met before is only marked in `current`. Then `clear_unloaded_libs`
  copies `current` into `last`, which frees the slots of unloaded modules
  (`registry.dfy`, module `TrapRegistry`, class `Registry`).
- **Lookup.** `getStaticTrapMap` refreshes the registry, then returns the
  header in the lowest current slot whose `[low_entry, high_entry]` contains
  the address.
- **Frame synthesis.** `dyninstSetupContext` translates the trapped PC and
  stores five words below the trapped stack pointer: the target, the flags,
  r11, r10 and rax. It returns a context whose PC is the handler's return
  point and whose SP is the lowest stored word (`context.dfy`, module
  `TrapContext`).

`machine.dfy` (module `Machine`) holds the 64-bit word type, addition modulo
2^64 and an Option type.

Modelling choices:

- Each bit set is an `array<bv32>`, and `set_bit` works on it in place.
  - Its abstract value is `Bits`, one boolean per slot.
  - The class `Registry` keeps ghost copies `cur` and `lst` of the two bit
    sets, tied to the arrays slot by slot (`Coupled`).
- `all_headers` is an `array<Word>` of header addresses.
- The headers are records held in a map from address to header (`headers`).
  - `parse_link_map` updates the header in that map, as the source updates
    the header in the module's memory.
  - A header's `pos` is its slot.
- The loader's list is a sequence of `LinkMap` values, each with a load bias
  and an optional dynamic section. The walk over `l_next` is a loop over that
  sequence.
- `dyninstTrapTranslate` is a function parameter (`Translator`) that gets
  the trap address, the table and the sorted flag.
- `DYNINSTstaticMode` is a boolean parameter.
- The trapped stack is the class `Stack` with a map from address to word.
  The machine context is a value (`MContext`).
- A failed `assert` in the source aborts the process. The model treats each
  assertion of the modelled code in one of four ways.
  - Explicit outcomes:
    - the zero-PC check (RTfreebsd.c:328) is `NoTrapAddress` of the redirect;
    - the missing-header check (RTfreebsd.c:339) is `NoHeader`;
    - the free-slot range check (RTfreebsd.c:493) is `Aborted` of
      `parse_link_map`, `Halted` of `parse_libs` and `RegistryFull` of the
      redirect.
  - Proved at every call, from preconditions the caller meets:
    - the slot check of a header met before (RTfreebsd.c:478) follows from
      `Registered` and the walk invariant (`MarkSeen` ensures it);
    - the slot bound of `set_bit` (RTfreebsd.c:515) is a precondition of
      `SetBit`, met by every caller.
  - Always true in the model:
    - the scan-index bound (RTfreebsd.c:417) holds by the contract of
      `NextCurrent`;
    - the pointer-size check (RTfreebsd.c:466) is a property of the amd64
      build, whose words are 64 bits.
  - Not reached: the assertion after `setcontext` (RTfreebsd.c:372), which
    goes with `setcontext` (see "Left out").
- The struct `trap_mapping_header` and the constants DT_DYNINST and
  TRAP_HEADER_SIG are defined in `dyninstAPI_RT.h`, which is not part of this
  model.
  - The fields used are the ones the code reads: `signature`, `pos`,
    `low_entry`, `high_entry`, `num_entries` (the length of `traps`) and
    `traps`.
  - The constant values are Dyninst's. The proofs rely only on DT_DYNINST
    differing from DT_NULL.

The environment's obligations appear as preconditions of the registry's
methods:

- Every module's dynamic section ends with DT_NULL.
- The DT_DYNINST entry of a module points at a header (`Loadable`).
- A header that already has a slot belongs to a module that was present in
  the previous walk (`Registered`). This is what the source's
  `assert(all_headers[header->pos] == header)` relies on.

Between walks the registry need only keep its two bit sets coupled to their
words (`Coupled`). A slot marked in `last` may still name a header that has
since been unloaded, or reloaded at the same address with `pos` back at -1.
The walk never reads such a slot: `clear_bitmask` empties `current`, a
reloaded header gets a new slot, and `clear_unloaded_libs` then frees the old
one. After a walk, every slot marked in `current` holds a header whose `pos`
is that slot, and is also marked in `last` (`Valid`).

Behaviour of the code worth noting:

- The code uses the registry when `DYNINSTstaticMode` is set, and the global
  trap table otherwise.
- A header with a bad signature makes `parse_link_map` return
  ERROR_INTERNAL, which `parse_libs` ignores. The walk goes on and nothing
  aborts.
- A translation that misses (NULL) is stored as the target without an
  assertion.
- A full registry does not return ERROR_FULL. The assertion just before that
  return aborts the process, so ERROR_FULL is never returned
  (`ParseLinkMap` ensures `res != ErrorFull`). Given the environment's
  obligations above, that assertion is the only abort of a walk. It fires
  exactly when a header without a slot meets a `last` with every slot marked.
  A walk therefore halts exactly when the list's headers still without a
  slot outnumber the slots free in `last`.

## Model

| member | source | states |
|---|---|---|
| Bitmask.SetBit | dyninstAPI_RT/src/RTfreebsd.c:514-524 | only word `bit / 32` changes, and only in bit `bit % 32`, which becomes set for a nonzero value and clear otherwise; as a bit set, slot `bit` becomes `value != 0` and every other slot keeps its value |
| Bitmask.SetBitWordAt | dyninstAPI_RT/src/RTfreebsd.c:518-523 | `w \| (1 << k)` and `w & ~(1 << k)` give bit `k` the requested value and leave every other bit of the word as it was |
| Bitmask.ClearBitmask | dyninstAPI_RT/src/RTfreebsd.c:526-531 | every one of the 17 words is 0 afterwards, so no slot is marked |
| Bitmask.NextWith | dyninstAPI_RT/src/RTfreebsd.c:533-575 | reference search: the result lies in `(p, 512]` and, when below 512, is a slot whose bit equals `v` |
| Bitmask.NextWithSkips | dyninstAPI_RT/src/RTfreebsd.c:533-575 | no slot strictly between `p` and the result has bit `v`, so the result is the least such slot |
| Bitmask.NextWithUnique | dyninstAPI_RT/src/RTfreebsd.c:533-575 | any `r` past `p` that has bit `v` (or is 512) and has no bit `v` between `p` and itself is the search result: the search is fully determined |
| Bitmask.FullWordBits | dyninstAPI_RT/src/RTfreebsd.c:538-541 | a word equal to `(unsigned) -1` marks all 32 of its slots, so skipping it misses no clear slot |
| Bitmask.ZeroWordBits | dyninstAPI_RT/src/RTfreebsd.c:560-563 | a zero word marks none of its 32 slots, so skipping it misses no set slot |
| Bitmask.ScanWord | dyninstAPI_RT/src/RTfreebsd.c:542-550 | the inner loop: it either finds, inside word `i`, the first slot from `start` whose bit is `v`, or stops at the end of the word; every slot it passes has the other value |
| Bitmask.GetNextFree | dyninstAPI_RT/src/RTfreebsd.c:533-553 | returns the least clear slot after `lastPos`, or 512 when there is none; requires `lastPos + 1` to be word-aligned, which the caller's -1 is |
| Bitmask.GetNextSet | dyninstAPI_RT/src/RTfreebsd.c:555-575 | returns the least set slot after `lastPos`, or 512; requires `lastPos + 1` to be aligned or bit `lastPos` to be set, which covers the caller's -1 and every slot it was given |
| Bitmask.NoFreeSlot | dyninstAPI_RT/src/RTfreebsd.c:492-495 | the free-slot search from -1 returns 512 exactly when every slot is marked, and then all 512 slots are in use: the condition under which the assertion after the search fails |
| TrapRegistry.StopIndex | dyninstAPI_RT/src/RTfreebsd.c:467 | the index of the first entry at or after `i` whose tag is DT_NULL or DT_DYNINST; every entry before it has another tag |
| TrapRegistry.ScanDynamic | dyninstAPI_RT/src/RTfreebsd.c:467 | the scan loop stops at the first DT_NULL or DT_DYNINST entry, passing only other tags |
| TrapRegistry.Relocate | dyninstAPI_RT/src/RTfreebsd.c:482-490 | every entry's source and target are moved by the load bias modulo 2^64; `low_entry`/`high_entry` are the fold of the update over the relocated sources in order; signature and `pos` are untouched |
| TrapRegistry.LowEntryIsMin | dyninstAPI_RT/src/RTfreebsd.c:486-487 | starting from the unset value 0, `low_entry` ends as the least source, provided no source is the address 0 |
| TrapRegistry.HighEntryIsMax | dyninstAPI_RT/src/RTfreebsd.c:488-489 | starting from 0, `high_entry` ends as the greatest source |
| TrapRegistry.BoundsCoverSources | dyninstAPI_RT/src/RTfreebsd.c:482-490 | after relocation, every trap source lies in `[low_entry, high_entry]`, so the lookup's bounds test accepts every instrumented address of the module |
| TrapRegistry.RewrittenContains | dyninstAPI_RT/src/RTfreebsd.c:441-444 | the header of every module of the list is among the headers of the whole walk |
| TrapRegistry.RewrittenSize | dyninstAPI_RT/src/RTfreebsd.c:441-444 | a walk over `n` modules meets at most `n` headers |
| TrapRegistry.PendingAtMost | dyninstAPI_RT/src/RTfreebsd.c:441-444 | at most one header per module of the list still needs a slot, so a walk needs at most one new slot per module |
| TrapRegistry.SlotTaken | dyninstAPI_RT/src/RTfreebsd.c:492-500 | registering a header without a slot in a free slot of `last` adds one slot in use and removes one header waiting for a slot, so their sum is kept |
| TrapRegistry.RelocationStep | dyninstAPI_RT/src/RTfreebsd.c:441-444 | visiting one more module keeps the walk's relocation record: each header of the list that had no slot at the start is either untouched and still without one, or has a slot and was relocated once, by the load bias of a visited module pointing at it |
| TrapRegistry.WalkRelocates | dyninstAPI_RT/src/RTfreebsd.c:441-444 | a completed walk that leaves no header of the list without a slot has relocated every header that needed one, by the load bias of a module of the list pointing at it |
| TrapRegistry.FreshStep | dyninstAPI_RT/src/RTfreebsd.c:441-444 | visiting one more module keeps the walk's slot record: every slot reserved in `last` when the walk began stays reserved, each slot reserved since is current and belongs to a header of the list that had no slot, and each such header took a slot free at the start with every lower slot free at the start already taken |
| TrapRegistry.FreshTake | dyninstAPI_RT/src/RTfreebsd.c:492-500 | a header without a slot taking the lowest slot free in `last` keeps that slot record |
| TrapRegistry.HeaderOfShape | dyninstAPI_RT/src/RTfreebsd.c:467-475 | a module is classified the same way over two memories with the same header addresses and signatures, which is what the walk's updates keep |
| TrapRegistry.Registry.constructor | dyninstAPI_RT/src/RTfreebsd.c:384-387 | the static arrays start zeroed: no slot is marked in either bit set |
| TrapRegistry.Registry.MarkCurrent | dyninstAPI_RT/src/RTfreebsd.c:499 | `set_bit(all_headers_current, k, 1)` marks slot `k` in `current` and changes no other slot |
| TrapRegistry.Registry.MarkLast | dyninstAPI_RT/src/RTfreebsd.c:500 | `set_bit(all_headers_last, k, 1)` marks slot `k` in `last` and changes no other slot |
| TrapRegistry.Registry.ClearCurrent | dyninstAPI_RT/src/RTfreebsd.c:440 | `clear_bitmask(all_headers_current)` starts a walk from any coupled registry, including one whose `last` slots name headers unloaded or reloaded since the previous walk: no slot is current afterwards, and the walk invariant holds |
| TrapRegistry.Registry.FreeSlot | dyninstAPI_RT/src/RTfreebsd.c:492 | the slot returned is the lowest one clear in `last`, or 512 |
| TrapRegistry.Registry.NextCurrent | dyninstAPI_RT/src/RTfreebsd.c:416 | the slot returned is the next one marked in `current` after `i`, or 512 |
| TrapRegistry.Registry.LocateHeader | dyninstAPI_RT/src/RTfreebsd.c:462-475 | NULL `l_ld` gives ERROR_INTERNAL; no DT_DYNINST before DT_NULL gives NOT_REWRITTEN; a bad signature gives ERROR_INTERNAL; otherwise the header address is `d_val + l_addr` (mod 2^64); an address comes back exactly when the module is a rewritten one |
| TrapRegistry.Registry.ParseLinkMap | dyninstAPI_RT/src/RTfreebsd.c:456-503 | NULL `l_ld`, no DT_DYNINST and a bad signature give their results and change nothing; ALREADY_PARSED exactly for a header that has a slot, and then only its slot's bit in `current` is set, leaving `last`, the slots and every header unchanged; it aborts exactly for a header without a slot when every slot of `last` is marked; such a header is relocated by `l_addr` with `low_entry`/`high_entry` folded over the relocated sources, and on PARSED takes slot `NextWith(last, -1, false)`, which is set in both bit sets and holds its address, no other slot changing; ERROR_FULL is never returned; any result but PARSED leaves `last` and every `pos` unchanged; unless it aborts, the module's header joins the headers marked current and nothing else does; only the module's own header may change, and only on first sighting |
| TrapRegistry.Registry.Register | dyninstAPI_RT/src/RTfreebsd.c:476-502 | a header with `pos != -1` gives ALREADY_PARSED, sets only its bit in `current` and leaves `last`, the slots and all headers unchanged; it aborts exactly when the header has no slot and every slot of `last` is marked; a header without a slot is relocated by the load bias, and on PARSED it takes the lowest slot free in `last`, set in both bit sets |
| TrapRegistry.Registry.MarkSeen | dyninstAPI_RT/src/RTfreebsd.c:476-479 | an already registered header is marked current in its own slot; the slot still holds it, as the source asserts |
| TrapRegistry.Registry.FirstSighting | dyninstAPI_RT/src/RTfreebsd.c:482-502 | the header is relocated; if `last` has a free slot, the lowest free slot `k` becomes its `pos`, slot `k` holds its address, bit `k` is set in both bit sets and no other slot changes; otherwise the process aborts with the slots and bit sets unchanged |
| TrapRegistry.Registry.RegisterNew | dyninstAPI_RT/src/RTfreebsd.c:492-502 | the slot chosen is `NextWith(last, -1, false)`, a slot clear in `last`, so a slot is never given out twice while its bit in `last` stays set; without one the process aborts |
| TrapRegistry.Registry.Store | dyninstAPI_RT/src/RTfreebsd.c:482-493 | a relocated header still without a slot is written back without disturbing the walk |
| TrapRegistry.Registry.Assign | dyninstAPI_RT/src/RTfreebsd.c:497-500 | `pos := k`, `all_headers[k] := header` and bit `k` set in both bit sets: the header joins the walk and no other slot changes |
| TrapRegistry.Registry.ClearUnloadedLibs | dyninstAPI_RT/src/RTfreebsd.c:505-512 | `last` equals `current` word for word, so exactly the slots of the modules seen in this walk stay reserved |
| TrapRegistry.Registry.WalkList | dyninstAPI_RT/src/RTfreebsd.c:440-444 | unless it aborts, the walk marks current exactly the headers of the rewritten modules of the list, and leaves registered headers and headers of modules outside the list unchanged; every header that needed a slot has one and was relocated once by the load bias of a module pointing at it; the slots it gave out were free in `last` when it began, each one the lowest still free at the time, and every slot reserved at the start stays reserved; it aborts exactly when the slots in use plus the headers still without a slot exceed 512, and `last` is then full |
| TrapRegistry.Registry.VisitModule | dyninstAPI_RT/src/RTfreebsd.c:442-443 | one iteration keeps the walk's invariant: the headers of the modules visited so far are exactly the ones marked current; each header given a slot so far was relocated by the load bias of a visited module pointing at it and took a slot free in `last` at the walk's start, with every lower slot free then already taken; the slots in use plus the headers still without a slot stay the same; it aborts only when that count exceeds 512 and `last` is full |
| TrapRegistry.Registry.ParseCounted | dyninstAPI_RT/src/RTfreebsd.c:443 | `parse_link_map` inside a walk keeps the walk invariant and the count of slots the walk needs; unless it aborts, a header without a slot is relocated by `l_addr` and takes slot `NextWith(last, -1, false)`, set in both bit sets, no current slot is cleared, and a module that brings no new header leaves `last` unchanged; it aborts only when that count exceeds 512 with `last` full |
| TrapRegistry.Registry.ParseLibs | dyninstAPI_RT/src/RTfreebsd.c:432-448 | an empty list gives -1 and changes nothing; otherwise the registry is valid afterwards, and on success (`RefreshedFrom`) `last` equals `current`, exactly the headers of the rewritten modules of the list are current, a registered header keeps its slot and is not relocated again, other headers are untouched, and every header that had no slot was relocated once by the load bias of a module of the list pointing at it and took a slot free in `last` before the walk, every lower slot free then going to another such header; it aborts exactly when the list is not empty and the headers of the list without a slot outnumber the slots free in `last` (so never when the slots in use plus the list length are at most 512), and `last` is then full |
| TrapRegistry.Registry.RefreshDone | dyninstAPI_RT/src/RTfreebsd.c:441-447 | a completed walk followed by `clear_unloaded_libs` is a refresh in the sense of `RefreshedFrom`: the walk's relocation and slot records become the per-header guarantees of `parse_libs` |
| TrapRegistry.Registry.Lookup | dyninstAPI_RT/src/RTfreebsd.c:414-426 | None exactly when no current slot's header covers the address; otherwise the header of the lowest current slot that covers it |
| TrapRegistry.Registry.GetStaticTrapMap | dyninstAPI_RT/src/RTfreebsd.c:406-430 | after the refresh, unless it aborted, every guarantee of `ParseLibs` on success holds (`RefreshedFrom`) for a non-empty list; the result is None exactly when no current header covers the address, else the lowest covering one, which is the header of a module of the list; the refresh aborts exactly under the condition stated for `ParseLibs` |
| TrapContext.Below | dyninstAPI_RT/src/RTfreebsd.c:355-361 | `orig_sp - (i + 1)` as a byte address: `8 * (i + 1)` below the SP, modulo 2^64 |
| TrapContext.PushFrame | dyninstAPI_RT/src/RTfreebsd.c:355-361 | each of the five addresses below the SP holds its frame word, and every other address of memory is unchanged |
| TrapContext.Stack.StoreFrame | dyninstAPI_RT/src/RTfreebsd.c:355-361 | the five stores through `orig_sp` leave the stack equal to `PushFrame` of the old stack |
| TrapContext.Redirect | dyninstAPI_RT/src/RTfreebsd.c:323-331 | the new context is the trapped one with the PC at `retPoint` and the SP at `orig_sp - 5`; rax, r10, r11 and every other register are copied |
| TrapContext.RedirectRoundTrip | dyninstAPI_RT/src/RTfreebsd.c:355-366 | popping rax, r10 and r11, then the flags, then returning, from the redirected context over the written stack resumes the trapped context unchanged, except that the PC is the target, with the saved flags |
| TrapContext.StaticTarget | dyninstAPI_RT/src/RTfreebsd.c:335-346 | in static mode the target is the translation of the PC through the entries of the lowest current header covering it, as a sorted table, over a registry refreshed from the list (`RefreshedFrom`); None when no header covers the PC or the walk aborted, which happens exactly when the list is not empty and its headers without a slot outnumber the free slots of `last` |
| TrapContext.SetupContext | dyninstAPI_RT/src/RTfreebsd.c:312-373 | a zero PC aborts; otherwise the registry is used only in static mode, where it is refreshed from the list (`RefreshedFrom`) before the lookup, a missing header aborts, and a full registry aborts exactly when the PC is nonzero, the mode is static, the list is not empty and its headers without a slot outnumber the free slots of `last`; on success the target is the translation from the mode's table, the stack is the old one plus the frame (target, flags, r11, r10, rax), and the new context is `Redirect`; on abort the stack is unchanged |

## Left out

- `getcontext`/`setcontext`, the signal mask and floating-point state. The redirect returns the context to restore instead of transferring control.
- The body of `dyninstTrapTranslate`, which is not in RTfreebsd.c. It is a function parameter, and the lookup's table-version and concurrency handling is outside the model.
- The return trampoline is not in RTfreebsd.c. `Unwind` follows the behaviour the comment at RTfreebsd.c:304-310 describes (a `popf` and a `ret` at `retPoint`), preceded by pops of rax, r10 and r11, which undo the stores at RTfreebsd.c:359-361.
- `tc_lock_lock`/`tc_lock_unlock`: the model assumes exclusive access to the registry.
- Builds other than amd64 are not modelled. For `MUTATEE_32` and non-amd64 targets the `#error` at RTfreebsd.c:363-365 stops the build, so those targets have no trap frame.
- `mark_heaps_exec`, the unimplemented stubs, the thread-identity calls, `DYNINSTthreadInfo` and the commented-out offset-discovery program: OS calls and ABI-specific reads outside the registry.
- The loader's list is given to `ParseLibs` as a value. Loading and unloading modules between walks is a change of the environment, not something the model performs.
- The header memory is the field `headers` of the registry rather than memory the modules own. A walk needs only the headers of the modules in the list to be in it.
- RegisterNew: on a full registry, the relocated header is written back after the slot search. In the source it is relocated in place before the search. The search reads only `last`, so the order cannot be observed.
- ParseLibs: when a module aborts the walk (`Halted`), the contract states the cause (a full `last`, and more headers without a slot than free slots), the registry's consistency and the unchanged header addresses and signatures. It does not state which modules were marked before the abort: the process is gone at that point.
- Builds with `NDEBUG`: every `assert` of RTfreebsd.c (it includes `<assert.h>`) is taken to abort the process. With `NDEBUG` set they are compiled out. A full registry then makes `parse_link_map` return ERROR_FULL, with the header already relocated in place and its `pos` still -1, so the next walk would relocate it a second time. The model does not cover that build.
- GetStaticTrapMap: with an empty module list nothing is refreshed, and the scan reads the current slots as the previous walk left them. For that case it requires the registry to be valid (`Valid`). A running process always has its main program in the list.
- LowEntryIsMin: requires every source to be nonzero, because the source's 0 "unset" marker makes a relocated source at address 0 invisible to the minimum.
- SetBit, GetNextFree and GetNextSet: the source shifts the `int` 1 (RTfreebsd.c:519, 522, 543, 565), so a shift by 31 overflows a signed `int`, which C leaves undefined. The model works on `bv32` and takes the mask of bit 31 to be 0x80000000, as common compilers do.
- Only the low 512 bits of each 17-word bit set are slots. The 32 bits of the last word are never set or read as slots.
- GetNextFree: requires `lastPos + 1` to be a multiple of 32. From any other start, skipping a full word moves the scan to the middle of the next word and passes over that word's first slots. Its only caller starts from -1.
- GetNextSet: requires `lastPos + 1` to be a multiple of 32 or bit `lastPos` to be set. That excludes the same mid-word skip: a word holding a set bit is never skipped. Its only caller starts from -1 or from the slot it last received.

=== FILE: bitmask.dfy ===
/** The fixed-capacity bit sets of the trap registry (`all_headers_current`,
    `all_headers_last`): arrays of 17 32-bit `unsigned` words holding one bit per
    registry slot. Bit `j` lives in bit `j % 32` of word `j / 32`; only the first
    512 bits are slots, the last word's bits stay unused. */
module Bitmask {

  /** Maximum number of rewritten libraries, i.e. registry slots. */
  const NUM_LIBRARIES: int := 512
  /** Bits per `unsigned` word. */
  const WORD_SIZE: int := 32
  /** Words per bit set: one more than 512 / 32. */
  const BITMASK_SIZE: int := 1 + NUM_LIBRARIES / WORD_SIZE

  const FULL_WORD: bv32 := 0xFFFF_FFFF

  /** Bit `k` of word `w` (`1 << k & w` in the source). */
  predicate TestBit(w: bv32, k: int)
    requires 0 <= k < WORD_SIZE
  {
    w & ((1 as bv32) << k) != 0
  }

  /** The word with bit `k` of `w` set (`value` nonzero) or cleared. */
  function SetBitWord(w: bv32, k: int, value: int): bv32
    requires 0 <= k < WORD_SIZE
  {
    if value != 0 then w | ((1 as bv32) << k) else w & !((1 as bv32) << k)
  }

  /** Distinct shift amounts give disjoint single-bit masks. */
  lemma ShiftsDisjoint(k: int, t: int)
    requires 0 <= k < WORD_SIZE && 0 <= t < WORD_SIZE && k != t
    ensures ((1 as bv32) << k) & ((1 as bv32) << t) == 0
  {
  }

  lemma ShiftNonzero(k: int)
    requires 0 <= k < WORD_SIZE
    ensures (1 as bv32) << k != 0
  {
  }

  lemma OrAndOther(w: bv32, a: bv32, b: bv32)
    requires a & b == 0
    ensures (w | a) & b == w & b && (w & !a) & b == w & b
  {
  }

  lemma OrAndSame(w: bv32, a: bv32)
    requires a != 0
    ensures (w | a) & a != 0 && (w & !a) & a == 0
  {
  }

  /** Setting or clearing bit `k` leaves every other bit `t` as it was. */
  lemma SetBitWordOther(w: bv32, k: int, value: int, t: int)
    requires 0 <= k < WORD_SIZE && 0 <= t < WORD_SIZE && k != t
    ensures TestBit(SetBitWord(w, k, value), t) == TestBit(w, t)
  {
    var a := (1 as bv32) << k;
    var b := (1 as bv32) << t;
    ShiftsDisjoint(k, t);
    OrAndOther(w, a, b);
    assert SetBitWord(w, k, value) & b == w & b;
  }

  /** Setting or clearing bit `k` makes it set or clear as asked. */
  lemma SetBitWordSame(w: bv32, k: int, value: int)
    requires 0 <= k < WORD_SIZE
    ensures TestBit(SetBitWord(w, k, value), k) == (value != 0)
  {
    var a := (1 as bv32) << k;
    ShiftNonzero(k);
    OrAndSame(w, a);
  }

  /** Setting or clearing one bit of a word changes that bit as asked and no other. */
  lemma SetBitWordAt(w: bv32, k: int, value: int, t: int)
    requires 0 <= k < WORD_SIZE && 0 <= t < WORD_SIZE
    ensures TestBit(SetBitWord(w, k, value), t) == if t == k then value != 0 else TestBit(w, t)
  {
    if k != t {
      SetBitWordOther(w, k, value, t);
    } else {
      SetBitWordSame(w, k, value);
    }
  }

  /** Every bit of an all-ones word is set. */
  lemma FullWordAt(t: int)
    requires 0 <= t < WORD_SIZE
    ensures TestBit(FULL_WORD, t)
  {
    ShiftNonzero(t);
  }

  /** No bit of a zero word is set. */
  lemma ZeroWordAt(t: int)
    requires 0 <= t < WORD_SIZE
    ensures !TestBit(0, t)
  {
  }

  /** Slot `i * 32 + b` is bit `b` of word `i`. */
  lemma WordSplit(i: int, b: int)
    requires 0 <= b < WORD_SIZE
    ensures (i * WORD_SIZE + b) / WORD_SIZE == i && (i * WORD_SIZE + b) % WORD_SIZE == b
  {
  }

  /** Slot `j` of a bit set: bit `j % 32` of word `j / 32`. */
  predicate Bit(mask: seq<bv32>, j: int)
    requires |mask| == BITMASK_SIZE && 0 <= j < NUM_LIBRARIES
  {
    TestBit(mask[j / WORD_SIZE], j % WORD_SIZE)
  }

  /** The abstract value of a bit set: one boolean per registry slot. */
  function Bits(mask: seq<bv32>): (bits: seq<bool>)
    requires |mask| == BITMASK_SIZE
    ensures |bits| == NUM_LIBRARIES
  {
    seq(NUM_LIBRARIES, j requires 0 <= j < NUM_LIBRARIES => Bit(mask, j))
  }

  /** Bit `j` of the set is bit `j % 32` of word `j / 32`. */
  lemma BitsAt(mask: seq<bv32>, j: int)
    requires |mask| == BITMASK_SIZE && 0 <= j < NUM_LIBRARIES
    ensures j / WORD_SIZE < BITMASK_SIZE
    ensures Bits(mask)[j] == Bit(mask, j) == TestBit(mask[j / WORD_SIZE], j % WORD_SIZE)
  {
  }

  /** `bits` holds the slots of `mask`: a ghost copy tied to the words one slot
      at a time, so that reasoning about the copy does not unfold the words. */
  ghost predicate Mirrors(bits: seq<bool>, mask: seq<bv32>)
    requires |mask| == BITMASK_SIZE
  {
    |bits| == NUM_LIBRARIES &&
    forall j {:trigger Bit(mask, j)} :: 0 <= j < NUM_LIBRARIES ==> bits[j] == Bit(mask, j)
  }

  /** The abstract value mirrors its words. */
  lemma MirrorsBits(mask: seq<bv32>)
    requires |mask| == BITMASK_SIZE
    ensures Mirrors(Bits(mask), mask)
  {
    forall j | 0 <= j < NUM_LIBRARIES ensures Bits(mask)[j] == Bit(mask, j) {
      BitsAt(mask, j);
    }
  }

  /** A word equal to `(unsigned) -1` marks all 32 of its slots. */
  lemma FullWordBits(mask: seq<bv32>, bits: seq<bool>, i: int)
    requires |mask| == BITMASK_SIZE && Mirrors(bits, mask)
    requires 0 <= i < NUM_LIBRARIES / WORD_SIZE && mask[i] == FULL_WORD
    ensures forall k :: i * WORD_SIZE <= k < i * WORD_SIZE + WORD_SIZE ==> bits[k]
  {
    forall k | i * WORD_SIZE <= k < i * WORD_SIZE + WORD_SIZE ensures bits[k] {
      WordSplit(i, k - i * WORD_SIZE);
      assert Bit(mask, k);
    }
  }

  /** A zero word marks none of its 32 slots. */
  lemma ZeroWordBits(mask: seq<bv32>, bits: seq<bool>, i: int)
    requires |mask| == BITMASK_SIZE && Mirrors(bits, mask)
    requires 0 <= i < NUM_LIBRARIES / WORD_SIZE && mask[i] == 0
    ensures forall k :: i * WORD_SIZE <= k < i * WORD_SIZE + WORD_SIZE ==> !bits[k]
  {
    forall k | i * WORD_SIZE <= k < i * WORD_SIZE + WORD_SIZE ensures !bits[k] {
      WordSplit(i, k - i * WORD_SIZE);
      assert !Bit(mask, k);
    }
  }

  /** The empty bit set. */
  function NoBits(): (bits: seq<bool>)
    ensures |bits| == NUM_LIBRARIES && forall j :: 0 <= j < NUM_LIBRARIES ==> !bits[j]
  {
    seq(NUM_LIBRARIES, _ => false)
  }

  /** The least slot `j` with `p < j < NUM_LIBRARIES` whose bit equals `v`, or
      NUM_LIBRARIES when there is none. */
  function NextWith(bits: seq<bool>, p: int, v: bool): (r: int)
    requires |bits| == NUM_LIBRARIES && -1 <= p < NUM_LIBRARIES
    ensures p < r <= NUM_LIBRARIES
    ensures r < NUM_LIBRARIES ==> bits[r] == v
    decreases NUM_LIBRARIES - p
  {
    if p + 1 == NUM_LIBRARIES then NUM_LIBRARIES
    else if bits[p + 1] == v then p + 1
    else NextWith(bits, p + 1, v)
  }

  /** NextWith skips no position holding `v`: it is the first one after `p`. */
  lemma {:induction false} NextWithSkips(bits: seq<bool>, p: int, v: bool)
    requires |bits| == NUM_LIBRARIES && -1 <= p < NUM_LIBRARIES
    ensures forall j :: p < j < NextWith(bits, p, v) ==> bits[j] != v
    decreases NUM_LIBRARIES - p
  {
    if p + 1 < NUM_LIBRARIES && bits[p + 1] != v {
      NextWithSkips(bits, p + 1, v);
    }
  }

  /** NextWith is determined by its contract: any `r` that is past `p`, has bit
      value `v` (or is NUM_LIBRARIES) and has no bit equal to `v` between `p` and
      itself is the one it returns. */
  lemma {:induction false} NextWithUnique(bits: seq<bool>, p: int, v: bool, r: int)
    requires |bits| == NUM_LIBRARIES && -1 <= p < NUM_LIBRARIES
    requires p < r <= NUM_LIBRARIES
    requires r < NUM_LIBRARIES ==> bits[r] == v
    requires forall j :: p < j < r ==> bits[j] != v
    ensures NextWith(bits, p, v) == r
    decreases r - p
  {
    if p + 1 < r {
      NextWithUnique(bits, p + 1, v, r);
    }
  }

  /** The slots marked in a bit set. */
  ghost function Used(bits: seq<bool>): set<int>
    requires |bits| == NUM_LIBRARIES
  {
    set k | 0 <= k < NUM_LIBRARIES && bits[k]
  }

  /** The marked slots below `n`. */
  ghost function UsedBelow(bits: seq<bool>, n: int): set<int>
    requires 0 <= n <= |bits|
  {
    set k | 0 <= k < n && bits[k]
  }

  /** At most `n` of the first `n` slots are in use, and exactly `n` when all
      of them are marked. */
  lemma {:induction false} UsedBelowSize(bits: seq<bool>, n: int)
    requires 0 <= n <= |bits|
    ensures |UsedBelow(bits, n)| <= n
    ensures (forall k :: 0 <= k < n ==> bits[k]) ==> |UsedBelow(bits, n)| == n
  {
    if n > 0 {
      UsedBelowSize(bits, n - 1);
      if bits[n - 1] {
        assert UsedBelow(bits, n) == UsedBelow(bits, n - 1) + {n - 1};
      } else {
        assert UsedBelow(bits, n) == UsedBelow(bits, n - 1);
      }
    }
  }

  /** The free-slot search from -1 finds nothing exactly when every slot is
      marked, and then all 512 slots are in use; no more than 512 ever are. */
  lemma NoFreeSlot(bits: seq<bool>)
    requires |bits| == NUM_LIBRARIES
    ensures NextWith(bits, -1, false) == NUM_LIBRARIES <==> forall k :: 0 <= k < NUM_LIBRARIES ==> bits[k]
    ensures (forall k :: 0 <= k < NUM_LIBRARIES ==> bits[k]) ==> |Used(bits)| == NUM_LIBRARIES
    ensures |Used(bits)| <= NUM_LIBRARIES
  {
    NextWithSkips(bits, -1, false);
    assert Used(bits) == UsedBelow(bits, NUM_LIBRARIES);
    UsedBelowSize(bits, NUM_LIBRARIES);
  }

  /** `set_bit`: sets (`value` nonzero) or clears bit `bit` and nothing else. */
  method SetBit(mask: array<bv32>, bit: int, value: int)
    requires mask.Length == BITMASK_SIZE
    requires 0 <= bit < NUM_LIBRARIES
    modifies mask
    ensures mask[..] == old(mask[..])[bit / WORD_SIZE := SetBitWord(old(mask[bit / WORD_SIZE]), bit % WORD_SIZE, value)]
    ensures Bits(mask[..]) == Bits(old(mask[..]))[bit := value != 0]
  {
    ghost var before := mask[..];
    var word := bit / WORD_SIZE;
    var shift := bit % WORD_SIZE;
    if value != 0 {
      mask[word] := mask[word] | ((1 as bv32) << shift);
    } else {
      mask[word] := mask[word] & !((1 as bv32) << shift);
    }
    assert mask[..] == before[word := SetBitWord(before[word], shift, value)];
    forall j | 0 <= j < NUM_LIBRARIES
      ensures Bits(mask[..])[j] == Bits(before)[bit := value != 0][j]
    {
      if j / WORD_SIZE == word {
        SetBitWordAt(before[word], shift, value, j % WORD_SIZE);
      }
    }
  }

  /** `clear_bitmask`: every word becomes 0, so no slot is marked. */
  method ClearBitmask(mask: array<bv32>)
    requires mask.Length == BITMASK_SIZE
    modifies mask
    ensures forall i :: 0 <= i < BITMASK_SIZE ==> mask[i] == 0
    ensures Bits(mask[..]) == NoBits()
  {
    var i := 0;
    while i < BITMASK_SIZE
      invariant 0 <= i <= BITMASK_SIZE
      invariant forall k :: 0 <= k < i ==> mask[k] == 0
    {
      mask[i] := 0;
      i := i + 1;
    }
    forall j | 0 <= j < NUM_LIBRARIES
      ensures Bits(mask[..])[j] == NoBits()[j]
    {
      ZeroWordAt(j % WORD_SIZE);
    }
  }

  /** The inner loop shared by both searches: scans word `i` from slot `start`
      for the first slot whose bit equals `v`, stopping at the word's end. */
  method ScanWord(mask: array<bv32>, ghost bits: seq<bool>, i: int, start: int, v: bool)
    returns (found: bool, j: int)
    requires mask.Length == BITMASK_SIZE && Mirrors(bits, mask[..])
    requires 0 <= i < NUM_LIBRARIES / WORD_SIZE && i * WORD_SIZE <= start < i * WORD_SIZE + WORD_SIZE
    ensures found ==> start <= j < i * WORD_SIZE + WORD_SIZE && bits[j] == v
    ensures !found ==> j == i * WORD_SIZE + WORD_SIZE
    ensures forall k :: start <= k < j ==> bits[k] != v
  {
    j := start;
    while true
      invariant i * WORD_SIZE <= j < i * WORD_SIZE + WORD_SIZE
      invariant forall k :: start <= k < j ==> bits[k] != v
      decreases i * WORD_SIZE + WORD_SIZE - j
    {
      WordSplit(i, j - i * WORD_SIZE);
      BitsAt(mask[..], j);
      if TestBit(mask[i], j % WORD_SIZE) == v {
        return true, j;
      }
      j := j + 1;
      if j == i * WORD_SIZE + WORD_SIZE {
        WordSplit(i + 1, 0);
      } else {
        WordSplit(i, j - i * WORD_SIZE);
      }
      if j % WORD_SIZE == 0 {
        return false, j;
      }
    }
  }

  /** `get_next_free_bitmask`: the least clear slot after `lastPos`, or
      NUM_LIBRARIES. The source skips a whole word when it is all ones, which is
      only sound when the search starts on a word boundary; its one caller
      passes -1. */
  method GetNextFree(mask: array<bv32>, lastPos: int) returns (r: int)
    requires mask.Length == BITMASK_SIZE
    requires -1 <= lastPos < NUM_LIBRARIES && (lastPos + 1) % WORD_SIZE == 0
    ensures r == NextWith(Bits(mask[..]), lastPos, false)
  {
    MirrorsBits(mask[..]);
    ghost var bits := Bits(mask[..]);
    var j := lastPos + 1;
    var i := j / WORD_SIZE;
    WordSplit(i, 0);
    while j < NUM_LIBRARIES
      invariant lastPos < j <= NUM_LIBRARIES && j == i * WORD_SIZE
      invariant forall k :: lastPos < k < j ==> bits[k]
    {
      if mask[i] == FULL_WORD {
        FullWordBits(mask[..], bits, i);
        j := j + WORD_SIZE;
        i := i + 1;
        continue;
      }
      var found;
      found, j := ScanWord(mask, bits, i, j, false);
      if found {
        NextWithUnique(bits, lastPos, false, j);
        return j;
      }
      i := i + 1;
    }
    NextWithUnique(bits, lastPos, false, NUM_LIBRARIES);
    return NUM_LIBRARIES;
  }

  /** `get_next_set_bitmask`: the least set slot after `lastPos`, or
      NUM_LIBRARIES. A word that is all zeros is skipped whole, which is sound when
      the search starts on a word boundary or when bit `lastPos` itself is set
      (then the first word is not zero); its caller passes -1 or the slot it
      last received. */
  method GetNextSet(mask: array<bv32>, lastPos: int) returns (r: int)
    requires mask.Length == BITMASK_SIZE
    requires -1 <= lastPos < NUM_LIBRARIES
    requires (lastPos + 1) % WORD_SIZE == 0 || Bits(mask[..])[lastPos]
    ensures r == NextWith(Bits(mask[..]), lastPos, true)
  {
    MirrorsBits(mask[..]);
    ghost var bits := Bits(mask[..]);
    var j := lastPos + 1;
    var i := j / WORD_SIZE;
    WordSplit(i, j - i * WORD_SIZE);
    if j % WORD_SIZE != 0 {
      // bit `lastPos` is set and lies in word `i`
      BitsAt(mask[..], lastPos);
      WordSplit(i, lastPos - i * WORD_SIZE);
    }
    while j < NUM_LIBRARIES
      invariant lastPos < j <= NUM_LIBRARIES && i * WORD_SIZE <= j < i * WORD_SIZE + WORD_SIZE
      invariant j % WORD_SIZE == 0 ==> j == i * WORD_SIZE
      invariant j % WORD_SIZE == 0 || mask[i] != 0
      invariant forall k :: lastPos < k < j ==> !bits[k]
    {
      if mask[i] == 0 {
        ZeroWordBits(mask[..], bits, i);
        j := j + WORD_SIZE;
        i := i + 1;
        WordSplit(i, 0);
        continue;
      }
      var found;
      found, j := ScanWord(mask, bits, i, j, true);
      if found {
        NextWithUnique(bits, lastPos, true, j);
        return j;
      }
      i := i + 1;
    }
    NextWithUnique(bits, lastPos, true, NUM_LIBRARIES);
    return NUM_LIBRARIES;
  }
}

=== FILE: context.dfy ===
/** The frame and register writes of `dyninstSetupContext` (amd64): a trapped
    context is redirected so that restoring it enters the handler's return
    trampoline, which pops the saved scratch registers and the flags and then
    returns into the instrumentation that the trap address translates to. */
module TrapContext {
  import opened Machine
  import opened Bitmask
  import opened TrapRegistry

  /** Bytes per stack word (`unsigned long`). */
  const WORD_BYTES: int := 8
  /** Words the redirect stores below the trapped stack pointer (`shift`). */
  const FRAME_WORDS: int := 5

  /** The general-purpose registers of a machine context that the redirect
      reads or writes; `rest` stands for every other register, copied as is. */
  datatype MContext = MContext(rip: Word, rsp: Word, rax: Word, r10: Word, r11: Word, rest: seq<Word>)

  /** The trap table of the dynamic instrumentation, as `dyninstTrapTable`
      and `dyninstTrapTableIsSorted` hold it. */
  datatype TrapTable = TrapTable(entries: seq<TrapMapping>, sorted: bool)

  /** `dyninstTrapTranslate`, reduced to what it is given: the trap address,
      a table of mappings and whether the table is sorted. Its result is the
      target, or 0 (NULL) when the address is not in the table. */
  type Translator = (Word, seq<TrapMapping>, bool) -> Word

  /** How a redirect ends. Every outcome but `Redirected` is a failed
      assertion of the source, i.e. the process aborts. */
  datatype Outcome =
    | Redirected(ctx: MContext, target: Word)
    | NoTrapAddress   // `assert(orig_ip)`
    | RegistryFull    // the registry refresh found no free slot
    | NoHeader        // `assert(hdr)`: no loaded module covers the address

  /** The state the trampoline resumes with: the registers and the flags. */
  datatype Resumed = Resumed(ctx: MContext, flags: Word)

  /** The address of `orig_sp - (i + 1)` for an `unsigned long *orig_sp` at
      `sp`: `i + 1` words below `sp`, modulo 2^64. */
  function Below(sp: Word, i: int): (a: Word)
    requires 0 <= i < FRAME_WORDS
    ensures sp >= WORD_BYTES * (i + 1) ==> a == sp - WORD_BYTES * (i + 1)
    ensures sp < WORD_BYTES * (i + 1) ==> a == sp - WORD_BYTES * (i + 1) + WORD_LIMIT
  {
    if sp >= WORD_BYTES * (i + 1) then sp - WORD_BYTES * (i + 1) else sp - WORD_BYTES * (i + 1) + WORD_LIMIT
  }

  /** Walking up from the lowest frame word: `i` words above `orig_sp - 5`
      is `orig_sp - (5 - i)`, and five words above it is `orig_sp` again. */
  lemma AboveBelow(sp: Word, i: int)
    requires 0 <= i <= FRAME_WORDS
    ensures i < FRAME_WORDS ==> AddWrap(Below(sp, FRAME_WORDS - 1), WORD_BYTES * i) == Below(sp, FRAME_WORDS - 1 - i)
    ensures i == FRAME_WORDS ==> AddWrap(Below(sp, FRAME_WORDS - 1), WORD_BYTES * i) == sp
  {
  }

  /** The words stored below the trapped stack pointer, from `orig_sp - 1`
      down: the target, the flags, then r11, r10 and rax. */
  function Frame(target: Word, flags: Word, ctx: MContext): (frame: seq<Word>)
    ensures |frame| == FRAME_WORDS
  {
    [target, flags, ctx.r11, ctx.r10, ctx.rax]
  }

  /** Memory after `frame[i]` is stored at `orig_sp - (i + 1)` for each `i`:
      exactly those five words change. */
  function PushFrame(mem: map<Word, Word>, sp: Word, frame: seq<Word>): (r: map<Word, Word>)
    requires |frame| == FRAME_WORDS
    ensures forall i :: 0 <= i < FRAME_WORDS ==> Below(sp, i) in r && r[Below(sp, i)] == frame[i]
    ensures forall a :: (forall i :: 0 <= i < FRAME_WORDS ==> a != Below(sp, i)) ==>
      (a in r <==> a in mem) && (a in mem ==> r[a] == mem[a])
  {
    mem[Below(sp, 0) := frame[0]][Below(sp, 1) := frame[1]][Below(sp, 2) := frame[2]]
       [Below(sp, 3) := frame[3]][Below(sp, 4) := frame[4]]
  }

  /** The context the redirect restores: the trapped registers, with the PC at
      the trampoline and the SP at the lowest frame word. */
  function Redirect(ctx: MContext, retPoint: Word): (c: MContext)
    ensures c.rsp == Below(ctx.rsp, FRAME_WORDS - 1) && c.rip == retPoint
    ensures c.rax == ctx.rax && c.r10 == ctx.r10 && c.r11 == ctx.r11 && c.rest == ctx.rest
  {
    ctx.(rip := retPoint, rsp := Below(ctx.rsp, FRAME_WORDS - 1))
  }

  /** The trampoline run from context `c` over memory `mem`: pop rax, r10 and
      r11, pop the flags, then return to the next word. None when a word it
      pops is not in memory. */
  function Unwind(mem: map<Word, Word>, c: MContext): (r: Option<Resumed>)
    ensures r.Some? ==> r.value.ctx.rest == c.rest && r.value.ctx.rsp == AddWrap(c.rsp, WORD_BYTES * FRAME_WORDS)
  {
    var a0 := c.rsp;
    var a1 := AddWrap(c.rsp, WORD_BYTES);
    var a2 := AddWrap(c.rsp, WORD_BYTES * 2);
    var a3 := AddWrap(c.rsp, WORD_BYTES * 3);
    var a4 := AddWrap(c.rsp, WORD_BYTES * 4);
    if a0 in mem && a1 in mem && a2 in mem && a3 in mem && a4 in mem then
      Some(Resumed(c.(rax := mem[a0], r10 := mem[a1], r11 := mem[a2], rip := mem[a4],
                      rsp := AddWrap(c.rsp, WORD_BYTES * FRAME_WORDS)), mem[a3]))
    else
      None
  }

  /** The redirect loses nothing: after the frame is stored and the context
      redirected, the trampoline resumes the trapped context unchanged except
      that its PC is the target, with the flags that were saved. */
  lemma RedirectRoundTrip(mem: map<Word, Word>, ctx: MContext, flags: Word, retPoint: Word, target: Word)
    ensures Unwind(PushFrame(mem, ctx.rsp, Frame(target, flags, ctx)), Redirect(ctx, retPoint))
      == Some(Resumed(ctx.(rip := target), flags))
  {
    // the trampoline's five pops read the five stored words, lowest first
    AboveBelow(ctx.rsp, 0);
    AboveBelow(ctx.rsp, 1);
    AboveBelow(ctx.rsp, 2);
    AboveBelow(ctx.rsp, 3);
    AboveBelow(ctx.rsp, 4);
    AboveBelow(ctx.rsp, 5);
  }

  /** The target the trap address translates to. In static mode (the code's
      `DYNINSTstaticMode` branch) the table is the one of the registry's owner
      of the address, taken as sorted; otherwise it is the global table. */
  ghost predicate TranslatesTo(reg: Registry, ip: Word, staticMode: bool, table: TrapTable, translate: Translator, target: Word)
    reads reg, reg.slots, reg.current, reg.last
    requires staticMode ==> reg.Valid()
  {
    if staticMode then
      exists k :: reg.OwnerSlot(k, ip) && target == translate(ip, reg.headers[reg.slots[k]].traps, true)
    else
      target == translate(ip, table.entries, table.sorted)
  }

  /** The trapped thread's stack memory, word by word. */
  class Stack {
    var words: map<Word, Word>

    constructor (init: map<Word, Word>)
      ensures words == init
    {
      words := init;
    }

    /** The five stores through `orig_sp`: `frame[i]` goes to
        `orig_sp - (i + 1)`. */
    method StoreFrame(sp: Word, frame: seq<Word>)
      requires |frame| == FRAME_WORDS
      modifies this
      ensures words == PushFrame(old(words), sp, frame)
    {
      words := words[Below(sp, 0) := frame[0]];
      words := words[Below(sp, 1) := frame[1]];
      words := words[Below(sp, 2) := frame[2]];
      words := words[Below(sp, 3) := frame[3]];
      words := words[Below(sp, 4) := frame[4]];
    }
  }

  /** The static-mode lookup: `getStaticTrapMap` on the trap address, then
      `dyninstTrapTranslate` over the entries of the header it returns.
      `target` is None when the walk halted or no header covers the address. */
  method StaticTarget(reg: Registry, list: seq<LinkMap>, ip: Word, translate: Translator)
    returns (halted: bool, target: Option<Word>)
    requires reg.Coupled() && AllLoadable(list, reg.headers) && reg.Registered(Rewritten(list, reg.headers))
    requires list == [] ==> reg.Valid()
    modifies reg, reg.current, reg.last, reg.slots
    ensures reg.Valid()
    ensures halted ==> target.None?
    ensures halted <==>
      list != [] && NUM_LIBRARIES < |Used(old(reg.lst))| + |Pending(Rewritten(list, old(reg.headers)), old(reg.headers))|
    ensures halted ==> reg.Full()
    ensures !halted && list != [] ==> reg.RefreshedFrom(list, old(reg.headers), old(reg.lst))
    ensures !halted && target.None? ==>
      forall k {:trigger reg.cur[k]} :: 0 <= k < NUM_LIBRARIES && reg.cur[k] ==> !Covers(reg.headers[reg.slots[k]], ip)
    ensures target.Some? ==>
      exists k :: reg.OwnerSlot(k, ip) && target.value == translate(ip, reg.headers[reg.slots[k]].traps, true)
  {
    var hdr;
    halted, hdr := reg.GetStaticTrapMap(list, ip);
    if halted || hdr.None? {
      return halted, None;
    }
    ghost var k :| reg.OwnerSlot(k, ip) && reg.slots[k] == hdr.value;
    target := Some(translate(ip, reg.headers[hdr.value].traps, true));
  }

  /** `dyninstSetupContext`: translate the trapped PC, store the target, the
      flags, r11, r10 and rax below the trapped SP, and return the context to
      restore: the trapped registers with the PC at `retPoint` and the SP at
      the lowest stored word. */
  method SetupContext(stack: Stack, reg: Registry, list: seq<LinkMap>, ctx: MContext, flags: Word,
                      retPoint: Word, staticMode: bool, table: TrapTable, translate: Translator)
    returns (out: Outcome)
    requires staticMode ==> reg.Coupled() && AllLoadable(list, reg.headers) && reg.Registered(Rewritten(list, reg.headers))
    requires staticMode && list == [] ==> reg.Valid()
    modifies stack, reg, reg.current, reg.last, reg.slots
    ensures ctx.rip == 0 <==> out == NoTrapAddress
    ensures staticMode && ctx.rip != 0 ==> reg.Valid()
    ensures !staticMode || ctx.rip == 0 ==> unchanged(reg, reg.current, reg.last, reg.slots)
    ensures !staticMode ==> out.Redirected? || out == NoTrapAddress
    // the registry is full exactly when the list's unregistered modules do not fit
    ensures out == RegistryFull <==>
      staticMode && ctx.rip != 0 && list != [] &&
      NUM_LIBRARIES < |Used(old(reg.lst))| + |Pending(Rewritten(list, old(reg.headers)), old(reg.headers))|
    ensures out == RegistryFull ==> reg.Full()
    // in static mode the trap address was looked up in a refreshed registry
    ensures staticMode && ctx.rip != 0 && out != RegistryFull && list != [] ==>
      reg.RefreshedFrom(list, old(reg.headers), old(reg.lst))
    ensures out == NoHeader ==>
      staticMode && forall k {:trigger reg.cur[k]} :: 0 <= k < NUM_LIBRARIES && reg.cur[k] ==> !Covers(reg.headers[reg.slots[k]], ctx.rip)
    ensures out.Redirected? ==> out.ctx == Redirect(ctx, retPoint)
    ensures out.Redirected? ==> TranslatesTo(reg, ctx.rip, staticMode, table, translate, out.target)
    ensures out.Redirected? ==> stack.words == PushFrame(old(stack.words), ctx.rsp, Frame(out.target, flags, ctx))
    ensures !out.Redirected? ==> unchanged(stack)
  {
    if ctx.rip == 0 {
      return NoTrapAddress;
    }
    var target: Word;
    ghost var refreshed := true;
    if staticMode {
      var halted, found := StaticTarget(reg, list, ctx.rip, translate);
      if halted {
        return RegistryFull;
      }
      if found.None? {
        return NoHeader;
      }
      target := found.value;
      refreshed := list != [] ==> reg.RefreshedFrom(list, old(reg.headers), old(reg.lst));
    } else {
      target := translate(ctx.rip, table.entries, table.sorted);
    }
    stack.StoreFrame(ctx.rsp, Frame(target, flags, ctx));
    // the frame goes to the stack only: the registry is as the lookup left it
    assert refreshed == (staticMode && list != [] ==> reg.RefreshedFrom(list, old(reg.headers), old(reg.lst)));
    return Redirected(Redirect(ctx, retPoint), target);
  }
}

=== FILE: machine.dfy ===
/** Machine-level values shared by the trap registry and the context redirector:
    64-bit words (`unsigned long` on amd64) with wrap-around addition, and an
    Option type for lookups that may miss. */
module Machine {

  const WORD_LIMIT: int := 0x1_0000_0000_0000_0000

  /** An `unsigned long`: addresses, register contents and stack words. */
  type Word = x: int | 0 <= x < WORD_LIMIT

  datatype Option<+T> = None | Some(value: T)

  /** `a + b` computed in `unsigned long`, i.e. modulo 2^64. */
  function AddWrap(a: Word, b: Word): (r: Word)
    ensures a + b < WORD_LIMIT ==> r == a + b
    ensures a + b >= WORD_LIMIT ==> r == a + b - WORD_LIMIT && r < a
  {
    if a + b < WORD_LIMIT then a + b else a + b - WORD_LIMIT
  }
}

=== FILE: registry.dfy ===
/** The library trap registry of the FreeBSD runtime: it walks the loader's list
    of modules, finds the trap mapping header that the binary rewriter embedded in
    each rewritten module (reached through a DT_DYNINST entry of the module's
    dynamic section), relocates each header once, gives it a stable slot in
    `all_headers`, and answers "which module's header covers this address". */
module TrapRegistry {
  import opened Machine
  import opened Bitmask

  /** Dynamic-section tag that ends the section (ELF). */
  const DT_NULL: int := 0
  /** Dynamic-section tag whose value, plus the load bias, is the header address. */
  const DT_DYNINST: int := 0x6D191957
  /** Signature word of a valid trap mapping header. */
  const TRAP_HEADER_SIG: int := 0x759191D6

  /** One trap: the instrumented instruction and the instrumentation entry point. */
  datatype TrapMapping = TrapMapping(source: Word, target: Word)

  /** One entry of a module's dynamic section (`ElfX_Dyn`). */
  datatype DynEntry = DynEntry(tag: int, val: Word)

  /** A loader module descriptor (`struct link_map`): its load bias `l_addr` and
      its dynamic section `l_ld`, None when `l_ld` is NULL. */
  datatype LinkMap = LinkMap(lAddr: Word, lLd: Option<seq<DynEntry>>)

  /** Return values of `parse_link_map`. */
  datatype ParseResult =
    | Parsed          //  0: header relocated and given a slot
    | NotRewritten    //  1: no DT_DYNINST entry before DT_NULL
    | AlreadyParsed   //  2: header already has a slot; marked current
    | ErrorInternal   // -1: NULL dynamic section, or bad header signature
    | ErrorFull       // -2: declared, never returned (the assertion before it fires first)
    | Aborted         // assertion `new_pos < NUM_LIBRARIES` failed: the process aborts

  /** Return values of `parse_libs`. */
  datatype RefreshResult =
    | NoLinkMap   // -1: the loader's list is empty (`_r_debug.r_map` is NULL)
    | Refreshed   //  0
    | Halted      // a `parse_link_map` call aborted the process

  /** A trap mapping header as it sits in a module's memory: `pos` is its slot
      (-1 until it is registered), `lowEntry`/`highEntry` bound the relocated
      trap sources (0 means unset). */
  datatype TrapHeader = TrapHeader(signature: int, pos: int, lowEntry: Word, highEntry: Word, traps: seq<TrapMapping>)

  /** The process memory as far as it holds trap headers, by address. */
  type HeaderMemory = map<Word, TrapHeader>

  // ---------------------------------------------------------------------------
  // Dynamic-section scan

  /** Whether an entry stops the scan of `parse_link_map`. */
  predicate Stops(e: DynEntry) {
    e.tag == DT_NULL || e.tag == DT_DYNINST
  }

  /** A dynamic section as mapped: its last entry is the DT_NULL terminator. */
  predicate Terminated(dyn: seq<DynEntry>) {
    |dyn| > 0 && dyn[|dyn| - 1].tag == DT_NULL
  }

  /** Index of the first entry at or after `i` that is DT_NULL or DT_DYNINST. */
  function StopIndex(dyn: seq<DynEntry>, i: int): (k: int)
    requires Terminated(dyn) && 0 <= i < |dyn|
    ensures i <= k < |dyn| && Stops(dyn[k])
    ensures forall j :: i <= j < k ==> !Stops(dyn[j])
    decreases |dyn| - i
  {
    if Stops(dyn[i]) then i else StopIndex(dyn, i + 1)
  }

  /** The loop of `parse_link_map` that advances over the dynamic section until
      it meets DT_NULL or DT_DYNINST. */
  method ScanDynamic(dyn: seq<DynEntry>) returns (k: int)
    requires Terminated(dyn)
    ensures 0 <= k < |dyn| && Stops(dyn[k])
    ensures forall j :: 0 <= j < k ==> !Stops(dyn[j])
    ensures k == StopIndex(dyn, 0)
  {
    k := 0;
    while dyn[k].tag != DT_NULL && dyn[k].tag != DT_DYNINST
      invariant 0 <= k < |dyn|
      invariant forall j :: 0 <= j < k ==> !Stops(dyn[j])
      decreases |dyn| - k
    {
      k := k + 1;
    }
  }

  /** The address the module's DT_DYNINST entry points at, the load bias
      added: the entry found before DT_NULL, None when there is none or the
      module has no dynamic section. */
  function TaggedAddr(m: LinkMap): Option<Word>
    requires m.lLd.Some? ==> Terminated(m.lLd.value)
  {
    if m.lLd.None? then None
    else
      var dyn := m.lLd.value;
      var k := StopIndex(dyn, 0);
      if dyn[k].tag == DT_DYNINST then Some(AddWrap(dyn[k].val, m.lAddr)) else None
  }

  /** Whether the module can be classified: its dynamic section, if any, is
      terminated, and its DT_DYNINST entry (if any) points at a header. */
  predicate Loadable(m: LinkMap, mem: HeaderMemory) {
    (m.lLd.Some? ==> Terminated(m.lLd.value)) &&
    (TaggedAddr(m).Some? ==> TaggedAddr(m).value in mem)
  }

  predicate AllLoadable(list: seq<LinkMap>, mem: HeaderMemory) {
    forall i :: 0 <= i < |list| ==> Loadable(list[i], mem)
  }

  /** The address of a rewritten module's header (tagged, with a valid
      signature), as a set of zero or one element. */
  function HeaderOf(m: LinkMap, mem: HeaderMemory): (addrs: set<Word>)
    requires Loadable(m, mem)
    ensures addrs <= mem.Keys
  {
    match TaggedAddr(m)
    case Some(a) => if mem[a].signature == TRAP_HEADER_SIG then {a} else {}
    case None => {}
  }

  /** The header addresses of all rewritten modules in the loader's list. */
  function Rewritten(list: seq<LinkMap>, mem: HeaderMemory): (addrs: set<Word>)
    requires AllLoadable(list, mem)
    ensures addrs <= mem.Keys
  {
    if list == [] then {} else Rewritten(list[..|list| - 1], mem) + HeaderOf(list[|list| - 1], mem)
  }

  lemma RewrittenPrefix(list: seq<LinkMap>, mem: HeaderMemory, i: int)
    requires AllLoadable(list, mem) && 0 <= i < |list|
    ensures Rewritten(list[..i + 1], mem) == Rewritten(list[..i], mem) + HeaderOf(list[i], mem)
  {
    assert list[..i + 1][..i] == list[..i];
  }

  /** Every module's header is among the headers of the list. */
  lemma {:induction false} RewrittenContains(list: seq<LinkMap>, mem: HeaderMemory, i: int)
    requires AllLoadable(list, mem) && 0 <= i < |list|
    ensures HeaderOf(list[i], mem) <= Rewritten(list, mem)
    decreases |list|
  {
    if i < |list| - 1 {
      RewrittenContains(list[..|list| - 1], mem, i);
    }
  }

  /** A rewritten module whose header has no slot yet: the case in which
      `parse_link_map` relocates the header and looks for a free slot. */
  predicate NewHeader(m: LinkMap, mem: HeaderMemory)
    requires Loadable(m, mem)
  {
    TaggedAddr(m).Some? && HeaderOf(m, mem) != {} && mem[TaggedAddr(m).value].pos == -1
  }

  /** The headers among `addrs` that have no slot yet. */
  ghost function Pending(addrs: set<Word>, mem: HeaderMemory): set<Word> {
    set a | a in addrs && a in mem && mem[a].pos == -1
  }

  /** A list of `n` modules holds at most `n` headers. */
  lemma {:induction false} RewrittenSize(list: seq<LinkMap>, mem: HeaderMemory)
    requires AllLoadable(list, mem)
    ensures |Rewritten(list, mem)| <= |list|
    decreases |list|
  {
    if list != [] {
      var prefix := list[..|list| - 1];
      assert AllLoadable(prefix, mem);
      RewrittenSize(prefix, mem);
    }
  }

  /** At most one header per module of the list still needs a slot. */
  lemma PendingAtMost(list: seq<LinkMap>, mem: HeaderMemory)
    requires AllLoadable(list, mem)
    ensures |Pending(Rewritten(list, mem), mem)| <= |list|
  {
    var all := Rewritten(list, mem);
    RewrittenSize(list, mem);
    assert all == Pending(all, mem) + (all - Pending(all, mem));
  }

  /** Registering a pending header `a` in the free slot `k` moves one unit
      from the headers waiting for a slot to the slots in use. */
  lemma SlotTaken(all: set<Word>, m0: HeaderMemory, m1: HeaderMemory, a: Word, l0: seq<bool>, k: int)
    requires |l0| == NUM_LIBRARIES && 0 <= k < NUM_LIBRARIES && !l0[k]
    requires a in all && a in m0 && m0[a].pos == -1 && m1.Keys == m0.Keys && m1[a].pos != -1
    requires forall b :: b in m0 && b != a ==> m1[b] == m0[b]
    ensures |Used(l0[k := true])| + |Pending(all, m1)| == |Used(l0)| + |Pending(all, m0)|
  {
    assert Used(l0[k := true]) == Used(l0) + {k};
    assert Pending(all, m0) == Pending(all, m1) + {a};
  }

  /** `h` is `h0` with every entry moved by `bias` and the bounds folded over
      the moved sources: what the fix-up loop of `parse_link_map` leaves. */
  predicate Relocated(h0: TrapHeader, h: TrapHeader, bias: Word) {
    h.traps == RelocateAll(h0.traps, bias) &&
    h.lowEntry == LowEntry(h0.lowEntry, h.traps) &&
    h.highEntry == HighEntry(h0.highEntry, h.traps)
  }

  /** After a walk over the first `i` modules of `list`, each header of `all`
      that had no slot in `mem0` either still has none and is as it was, or
      has one and was relocated by the load bias of a visited module that
      points at it. */
  ghost predicate RelocatedBy(list: seq<LinkMap>, i: int, mem0: HeaderMemory, all: set<Word>, mem: HeaderMemory)
    requires AllLoadable(list, mem0) && 0 <= i <= |list|
  {
    forall a :: a in all && a in mem0 && mem0[a].pos == -1 ==> RelocatedAt(list, i, mem0, mem, a)
  }

  /** The header at `a`, slotless in `mem0`, is either as it was and still
      slotless in `mem`, or has a slot and was relocated by one of the first
      `i` modules. */
  ghost predicate RelocatedAt(list: seq<LinkMap>, i: int, mem0: HeaderMemory, mem: HeaderMemory, a: Word)
    requires AllLoadable(list, mem0) && 0 <= i <= |list| && a in mem0
  {
    a in mem &&
    (mem[a].pos == -1 ==> mem[a] == mem0[a]) &&
    (mem[a].pos != -1 ==>
      exists j :: 0 <= j < i && TaggedAddr(list[j]) == Some(a) && Relocated(mem0[a], mem[a], list[j].lAddr))
  }

  /** Visiting module `i` extends the walk: the only header it may change is
      its own new one, which it relocates by its load bias and registers. */
  lemma RelocationStep(list: seq<LinkMap>, i: int, mem0: HeaderMemory, all: set<Word>, h0: HeaderMemory, h1: HeaderMemory)
    requires AllLoadable(list, mem0) && 0 <= i < |list|
    requires RelocatedBy(list, i, mem0, all, h0) && h0.Keys == h1.Keys && Loadable(list[i], h0)
    requires forall b :: b in h0 && (b !in HeaderOf(list[i], h0) || h0[b].pos != -1) ==> h1[b] == h0[b]
    requires NewHeader(list[i], h0) ==>
      var a := TaggedAddr(list[i]).value;
      h1[a].pos != -1 && Relocated(h0[a], h1[a], list[i].lAddr)
    ensures RelocatedBy(list, i + 1, mem0, all, h1)
  {
    forall a | a in all && a in mem0 && mem0[a].pos == -1
      ensures a in h1 && (h1[a].pos == -1 ==> h1[a] == mem0[a])
      ensures h1[a].pos != -1 ==>
        exists j :: 0 <= j < i + 1 && TaggedAddr(list[j]) == Some(a) && Relocated(mem0[a], h1[a], list[j].lAddr)
    {
      if a in HeaderOf(list[i], h0) && h0[a].pos == -1 {
        assert NewHeader(list[i], h0) && TaggedAddr(list[i]) == Some(a);
      } else if h1[a].pos != -1 {
        var j :| 0 <= j < i && TaggedAddr(list[j]) == Some(a) && Relocated(mem0[a], h0[a], list[j].lAddr);
        assert 0 <= j < i + 1;
      }
    }
  }

  /** A walk over the whole list that leaves no header of the list without a
      slot has relocated every header that needed one, each by the load bias of
      a module pointing at it. */
  lemma WalkRelocates(list: seq<LinkMap>, mem0: HeaderMemory, all: set<Word>, mem: HeaderMemory)
    requires AllLoadable(list, mem0) && all == Rewritten(list, mem0)
    requires RelocatedBy(list, |list|, mem0, all, mem) && Pending(all, mem) == {}
    ensures forall a :: a in Pending(all, mem0) ==>
      a in mem && exists i :: 0 <= i < |list| && TaggedAddr(list[i]) == Some(a) && Relocated(mem0[a], mem[a], list[i].lAddr)
  {
    forall a | a in Pending(all, mem0)
      ensures a in mem && exists i :: 0 <= i < |list| && TaggedAddr(list[i]) == Some(a) && Relocated(mem0[a], mem[a], list[i].lAddr)
    {
      assert RelocatedAt(list, |list|, mem0, mem, a);
      assert a !in Pending(all, mem);
    }
  }

  /** The slots a walk has given out, measured against `lst0`, the slots
      marked in `last` when it began: every slot reserved then is still
      reserved; a slot reserved since is marked current and is the slot of a
      header of `all` that had no slot in `mem0`; and each such header that now
      has a slot took one that was free in `lst0`, no lower free slot being
      left. */
  ghost predicate FreshSlots(lst0: seq<bool>, lst: seq<bool>, cur: seq<bool>,
                             mem0: HeaderMemory, all: set<Word>, mem: HeaderMemory)
    requires |lst0| == |lst| == |cur| == NUM_LIBRARIES
  {
    (forall k :: 0 <= k < NUM_LIBRARIES && lst0[k] ==> lst[k]) &&
    (forall k :: 0 <= k < NUM_LIBRARIES && lst[k] && !lst0[k] ==> cur[k] && TakenBy(all, mem0, mem, k)) &&
    (forall a :: a in Pending(all, mem0) ==> LowestFree(lst0, lst, mem, a))
  }

  /** Slot `k` is the slot in `mem` of a header of `all` that had none in `mem0`. */
  ghost predicate TakenBy(all: set<Word>, mem0: HeaderMemory, mem: HeaderMemory, k: int) {
    exists b :: b in Pending(all, mem0) && b in mem && mem[b].pos == k
  }

  /** Header `a`, if it has a slot in `mem`, took one that was free in `lst0`,
      and every slot free in `lst0` below it is now marked in `lst`. */
  ghost predicate LowestFree(lst0: seq<bool>, lst: seq<bool>, mem: HeaderMemory, a: Word)
    requires |lst0| == |lst| == NUM_LIBRARIES
  {
    a in mem &&
    (mem[a].pos != -1 ==>
      0 <= mem[a].pos < NUM_LIBRARIES && !lst0[mem[a].pos] && lst[mem[a].pos] &&
      forall j :: 0 <= j < mem[a].pos && !lst0[j] ==> lst[j])
  }

  /** Visiting one module keeps `FreshSlots`: a new header takes the lowest
      slot free in the current `last`, which was free when the walk began, and
      every lower slot free then has been taken by an earlier new header. */
  lemma FreshStep(m: LinkMap, lst0: seq<bool>, mem0: HeaderMemory, all: set<Word>,
                  l1: seq<bool>, c1: seq<bool>, h1: HeaderMemory,
                  l2: seq<bool>, c2: seq<bool>, h2: HeaderMemory)
    requires |lst0| == |l1| == |c1| == |l2| == |c2| == NUM_LIBRARIES
    requires FreshSlots(lst0, l1, c1, mem0, all, h1)
    requires mem0.Keys == h1.Keys == h2.Keys && Loadable(m, h1) && HeaderOf(m, h1) <= all
    requires forall b :: b in mem0 && mem0[b].pos != -1 ==> h1[b] == mem0[b]
    requires forall b :: b in h1 && (b !in HeaderOf(m, h1) || h1[b].pos != -1) ==> h2[b] == h1[b]
    requires forall k :: 0 <= k < NUM_LIBRARIES && c1[k] ==> c2[k]
    requires NewHeader(m, h1) ==>
      var a, k := TaggedAddr(m).value, NextWith(l1, -1, false);
      k < NUM_LIBRARIES && h2[a].pos == k && c2[k] && l2 == l1[k := true]
    requires !NewHeader(m, h1) ==> l2 == l1
    ensures FreshSlots(lst0, l2, c2, mem0, all, h2)
  {
    if NewHeader(m, h1) {
      var a, k := TaggedAddr(m).value, NextWith(l1, -1, false);
      NextWithSkips(l1, -1, false);
      assert a in Pending(all, mem0);
      FreshTake(lst0, mem0, all, l1, c1, h1, l2, c2, h2, a, k);
    } else {
      assert h2 == h1;
      FreshKeep(lst0, mem0, all, l1, c1, h1, c2);
    }
  }

  /** A header of `all` without a slot takes slot `k`, the lowest one free in
      `l1`: `FreshSlots` is kept. */
  lemma FreshTake(lst0: seq<bool>, mem0: HeaderMemory, all: set<Word>,
                  l1: seq<bool>, c1: seq<bool>, h1: HeaderMemory,
                  l2: seq<bool>, c2: seq<bool>, h2: HeaderMemory, a: Word, k: int)
    requires |lst0| == |l1| == |c1| == |l2| == |c2| == NUM_LIBRARIES
    requires FreshSlots(lst0, l1, c1, mem0, all, h1)
    requires h1.Keys == h2.Keys && a in Pending(all, mem0) && a in h1 && h1[a].pos == -1
    requires forall b :: b in h1 && b != a ==> h2[b] == h1[b]
    requires forall j :: 0 <= j < NUM_LIBRARIES && c1[j] ==> c2[j]
    requires 0 <= k < NUM_LIBRARIES && !l1[k] && (forall j :: 0 <= j < k ==> l1[j])
    requires h2[a].pos == k && c2[k] && l2 == l1[k := true]
    ensures FreshSlots(lst0, l2, c2, mem0, all, h2)
  {
    forall b | b in Pending(all, mem0) ensures LowestFree(lst0, l2, h2, b) {
      if b != a {
        assert LowestFree(lst0, l1, h1, b);
      }
    }
    forall j | 0 <= j < NUM_LIBRARIES && l2[j] && !lst0[j] ensures TakenBy(all, mem0, h2, j) {
      if j != k {
        var b :| b in Pending(all, mem0) && b in h1 && h1[b].pos == j;
      }
    }
  }

  /** A visit that gives out no slot keeps `FreshSlots`, whatever it marks
      current. */
  lemma FreshKeep(lst0: seq<bool>, mem0: HeaderMemory, all: set<Word>,
                  l1: seq<bool>, c1: seq<bool>, h1: HeaderMemory, c2: seq<bool>)
    requires |lst0| == |l1| == |c1| == |c2| == NUM_LIBRARIES
    requires FreshSlots(lst0, l1, c1, mem0, all, h1)
    requires forall j :: 0 <= j < NUM_LIBRARIES && c1[j] ==> c2[j]
    ensures FreshSlots(lst0, l1, c2, mem0, all, h1)
  {
  }

  /** No header of `all` is still waiting for a slot. */
  lemma NonePending(all: set<Word>, mem: HeaderMemory)
    requires forall a :: a in all ==> a in mem && mem[a].pos != -1
    ensures Pending(all, mem) == {}
  {
  }

  /** Two memories with the same header addresses and signatures: what a walk
      of the registry leaves unchanged. */
  predicate SameShape(m1: HeaderMemory, m2: HeaderMemory) {
    m1.Keys == m2.Keys && forall a :: a in m1 ==> m1[a].signature == m2[a].signature
  }

  /** A module is classified the same way in memories of the same shape. */
  lemma HeaderOfShape(m: LinkMap, m1: HeaderMemory, m2: HeaderMemory)
    requires SameShape(m1, m2) && Loadable(m, m1)
    ensures Loadable(m, m2) && HeaderOf(m, m1) == HeaderOf(m, m2)
  {
  }

  // ---------------------------------------------------------------------------
  // Relocation and bounds

  /** An entry moved by the load bias, in `unsigned long` arithmetic. */
  function RelocateEntry(e: TrapMapping, bias: Word): TrapMapping {
    TrapMapping(AddWrap(e.source, bias), AddWrap(e.target, bias))
  }

  function RelocateAll(traps: seq<TrapMapping>, bias: Word): (r: seq<TrapMapping>)
    ensures |r| == |traps|
  {
    seq(|traps|, i requires 0 <= i < |traps| => RelocateEntry(traps[i], bias))
  }

  /** One step of the `low_entry` update: 0 means "unset". */
  function LowStep(low: Word, s: Word): Word {
    if low == 0 || low > s then s else low
  }

  /** One step of the `high_entry` update: 0 means "unset". */
  function HighStep(high: Word, s: Word): Word {
    if high == 0 || high < s then s else high
  }

  /** `low_entry` after the update loop has seen the sources of `traps` in order. */
  function LowEntry(low: Word, traps: seq<TrapMapping>): Word {
    if traps == [] then low else LowStep(LowEntry(low, traps[..|traps| - 1]), traps[|traps| - 1].source)
  }

  /** `high_entry` after the update loop has seen the sources of `traps` in order. */
  function HighEntry(high: Word, traps: seq<TrapMapping>): Word {
    if traps == [] then high else HighStep(HighEntry(high, traps[..|traps| - 1]), traps[|traps| - 1].source)
  }

  /** The fix-up loop of `parse_link_map`: add the load bias to every entry's
      source and target and fold the relocated sources into `low_entry` and
      `high_entry`. The header's other fields are left as they are. */
  method Relocate(h: TrapHeader, bias: Word) returns (r: TrapHeader)
    ensures r.signature == h.signature && r.pos == h.pos
    ensures r.traps == RelocateAll(h.traps, bias)
    ensures r.lowEntry == LowEntry(h.lowEntry, r.traps)
    ensures r.highEntry == HighEntry(h.highEntry, r.traps)
  {
    r := h;
    var i := 0;
    while i < |r.traps|
      invariant 0 <= i <= |r.traps| == |h.traps|
      invariant r.signature == h.signature && r.pos == h.pos
      invariant forall j :: 0 <= j < i ==> r.traps[j] == RelocateEntry(h.traps[j], bias)
      invariant forall j :: i <= j < |h.traps| ==> r.traps[j] == h.traps[j]
      invariant r.lowEntry == LowEntry(h.lowEntry, r.traps[..i])
      invariant r.highEntry == HighEntry(h.highEntry, r.traps[..i])
    {
      ghost var before := r.traps;
      var source := AddWrap(r.traps[i].source, bias);
      var target := AddWrap(r.traps[i].target, bias);
      r := r.(traps := r.traps[i := TrapMapping(source, target)]);
      assert r.traps[..i + 1][..i] == before[..i];
      if r.lowEntry == 0 || r.lowEntry > source {
        r := r.(lowEntry := source);
      }
      if r.highEntry == 0 || r.highEntry < source {
        r := r.(highEntry := source);
      }
      i := i + 1;
    }
    assert r.traps == RelocateAll(h.traps, bias);
    assert r.traps[..i] == r.traps;
  }

  /** Starting from the unset value 0, `low_entry` ends as the least source,
      provided no source is the address 0 (a 0 source would read as "unset"). */
  lemma {:induction false} LowEntryIsMin(traps: seq<TrapMapping>)
    requires |traps| > 0
    requires forall i :: 0 <= i < |traps| ==> traps[i].source != 0
    ensures exists i :: 0 <= i < |traps| && LowEntry(0, traps) == traps[i].source
    ensures forall i :: 0 <= i < |traps| ==> LowEntry(0, traps) <= traps[i].source
  {
    var n := |traps| - 1;
    if n == 0 {
      assert LowEntry(0, traps) == traps[0].source;
    } else {
      var prefix := traps[..n];
      LowEntryIsMin(prefix);
      var i0 :| 0 <= i0 < n && LowEntry(0, prefix) == prefix[i0].source;
      if LowEntry(0, traps) == traps[n].source {
        assert LowEntry(0, traps) == traps[n].source;
      } else {
        assert LowEntry(0, traps) == traps[i0].source;
      }
      forall i | 0 <= i < |traps| ensures LowEntry(0, traps) <= traps[i].source {
        if i < n {
          assert prefix[i] == traps[i];
        }
      }
    }
  }

  /** Starting from the unset value 0, `high_entry` ends as the greatest source. */
  lemma {:induction false} HighEntryIsMax(traps: seq<TrapMapping>)
    requires |traps| > 0
    ensures exists i :: 0 <= i < |traps| && HighEntry(0, traps) == traps[i].source
    ensures forall i :: 0 <= i < |traps| ==> traps[i].source <= HighEntry(0, traps)
  {
    var n := |traps| - 1;
    if n == 0 {
      assert HighEntry(0, traps) == traps[0].source;
    } else {
      var prefix := traps[..n];
      HighEntryIsMax(prefix);
      var i0 :| 0 <= i0 < n && HighEntry(0, prefix) == prefix[i0].source;
      if HighEntry(0, traps) == traps[n].source {
        assert HighEntry(0, traps) == traps[n].source;
      } else {
        assert HighEntry(0, traps) == traps[i0].source;
      }
      forall i | 0 <= i < |traps| ensures traps[i].source <= HighEntry(0, traps) {
        if i < n {
          assert prefix[i] == traps[i];
        }
      }
    }
  }

  /** The header bounds cover every trap source once the loop has run from the
      unset value, so a lookup of any instrumented address can find the header. */
  lemma BoundsCoverSources(traps: seq<TrapMapping>)
    requires |traps| > 0
    requires forall i :: 0 <= i < |traps| ==> traps[i].source != 0
    ensures forall i :: 0 <= i < |traps| ==>
      LowEntry(0, traps) <= traps[i].source <= HighEntry(0, traps)
  {
    LowEntryIsMin(traps);
    HighEntryIsMax(traps);
  }

  // ---------------------------------------------------------------------------
  // The registry

  /** Whether header `h` covers `addr`: `low_entry <= addr <= high_entry`. */
  predicate Covers(h: TrapHeader, addr: Word) {
    h.lowEntry <= addr <= h.highEntry
  }

  /** The registry's process-wide state: the slot table, its two bit sets, and
      the headers it updates in place. */
  class Registry {
    /** `all_headers`: the header address recorded in each slot (weak references). */
    const slots: array<Word>
    /** `all_headers_current`: slots seen in the walk under way or the last walk. */
    const current: array<bv32>
    /** `all_headers_last`: slots seen in the previous walk. */
    const last: array<bv32>
    /** The trap headers in the loaded modules' memory, by address. The registry
        relocates them and writes their `pos`; loading a module adds one. */
    var headers: HeaderMemory
    /** The slots marked in `current`, one boolean per slot. */
    ghost var cur: seq<bool>
    /** The slots marked in `last`, one boolean per slot. */
    ghost var lst: seq<bool>

    ghost predicate Shaped() {
      slots.Length == NUM_LIBRARIES &&
      current.Length == BITMASK_SIZE && last.Length == BITMASK_SIZE && current != last
    }

    /** `cur` and `lst` are the values of the two bit sets. */
    ghost predicate Coupled()
      reads this, current, last
    {
      Shaped() && |cur| == NUM_LIBRARIES && |lst| == NUM_LIBRARIES &&
      (forall j {:trigger Bit(current[..], j)} :: 0 <= j < NUM_LIBRARIES ==> cur[j] == Bit(current[..], j)) &&
      (forall j {:trigger Bit(last[..], j)} :: 0 <= j < NUM_LIBRARIES ==> lst[j] == Bit(last[..], j))
    }

    /** Every slot marked in `current` holds the address of a header that
        records that slot as its position, so no header occupies two current
        slots; and every slot marked in `current` is also marked in `last`.
        A slot marked only in `last` may hold a header that has since been
        unloaded or reloaded: the walk never reads such a slot. */
    ghost predicate Valid()
      reads this, slots, current, last
    {
      Coupled() &&
      (forall k {:trigger cur[k]} :: 0 <= k < NUM_LIBRARIES && cur[k] ==>
        slots[k] in headers && headers[slots[k]].pos == k && lst[k])
    }

    /** Every header of `addrs` that has a slot is recorded in that slot and the
        slot is marked in `last`: the module of a registered header was seen
        in the previous walk. */
    ghost predicate Registered(addrs: set<Word>)
      reads this, slots, current, last
      requires Coupled()
    {
      addrs <= headers.Keys &&
      forall a {:trigger a in addrs} :: a in addrs && headers[a].pos != -1 ==>
        0 <= headers[a].pos < NUM_LIBRARIES && lst[headers[a].pos] && slots[headers[a].pos] == a
    }

    /** The slots marked in `current` are exactly those of the headers `seen`. */
    ghost predicate SeenExactly(seen: set<Word>)
      reads this, slots, current, last
      requires Valid()
    {
      (forall a {:trigger a in seen} :: a in seen ==>
        a in headers && 0 <= headers[a].pos < NUM_LIBRARIES && cur[headers[a].pos] && slots[headers[a].pos] == a) &&
      (forall k {:trigger cur[k]} :: 0 <= k < NUM_LIBRARIES && cur[k] ==> slots[k] in seen)
    }

    /** The state of a walk of the loader's list: the headers of the whole
        list are `all`, those of the modules visited so far are `seen`. */
    ghost predicate Walk(all: set<Word>, seen: set<Word>)
      reads this, slots, current, last
    {
      Valid() && seen <= all && Registered(all) && SeenExactly(seen)
    }

    /** Slot `k` is the lowest current slot whose header covers `addr`. */
    ghost predicate OwnerSlot(k: int, addr: Word)
      reads this, slots, current, last
      requires Valid()
    {
      0 <= k < NUM_LIBRARIES && cur[k] && Covers(headers[slots[k]], addr) &&
      forall j {:trigger cur[j]} :: 0 <= j < k && cur[j] ==> !Covers(headers[slots[j]], addr)
    }

    /** Every slot of `last` is marked: `get_next_free_bitmask` finds no slot. */
    ghost predicate Full()
      reads this
    {
      |lst| == NUM_LIBRARIES && forall k :: 0 <= k < NUM_LIBRARIES ==> lst[k]
    }

    /** The slots a walk over the headers `all` needs, counted from the
        present: those in use in `last` plus one per header still without a
        slot. Registering a header keeps the count. */
    ghost function Demand(all: set<Word>): int
      reads this
      requires |lst| == NUM_LIBRARIES
    {
      |Used(lst)| + |Pending(all, headers)|
    }

    /** Every slot but `k` holds what it held before. */
    twostate predicate SlotsKept(k: int)
      reads this, slots
    {
      forall j {:trigger slots[j]} :: 0 <= j < slots.Length && j != k ==> slots[j] == old(slots[j])
    }

    /** The registry at process start: no slot used, over the given memory. */
    constructor (mem: HeaderMemory)
      ensures Valid() && fresh(slots) && fresh(current) && fresh(last) && headers == mem
      ensures cur == NoBits() && lst == NoBits()
      ensures forall k :: 0 <= k < NUM_LIBRARIES ==> slots[k] == 0
    {
      slots := new Word[NUM_LIBRARIES](_ => 0);
      var c := new bv32[BITMASK_SIZE](_ => 0);
      var l := new bv32[BITMASK_SIZE](_ => 0);
      current := c;
      last := l;
      headers := mem;
      cur := NoBits();
      lst := NoBits();
      new;
      forall j | 0 <= j < NUM_LIBRARIES ensures cur[j] == Bit(c[..], j) && lst[j] == Bit(l[..], j) {
        BitsAt(c[..], j);
        BitsAt(l[..], j);
        ZeroWordAt(j % WORD_SIZE);
      }
    }

    // -------------------------------------------------------------------------
    // The bit-set calls of the registry, on the abstract values

    /** `set_bit(all_headers_current, k, 1)`. */
    method MarkCurrent(k: int)
      requires Coupled() && 0 <= k < NUM_LIBRARIES
      modifies this`cur, current
      ensures Coupled() && cur == old(cur)[k := true]
    {
      ghost var before := current[..];
      SetBit(current, k, 1);
      cur := cur[k := true];
      forall j | 0 <= j < NUM_LIBRARIES ensures cur[j] == Bit(current[..], j) {
        BitsAt(current[..], j);
        BitsAt(before, j);
      }
      assert last[..] == old(last[..]);
    }

    /** `set_bit(all_headers_last, k, 1)`. */
    method MarkLast(k: int)
      requires Coupled() && 0 <= k < NUM_LIBRARIES
      modifies this`lst, last
      ensures Coupled() && lst == old(lst)[k := true]
    {
      ghost var before := last[..];
      SetBit(last, k, 1);
      lst := lst[k := true];
      forall j | 0 <= j < NUM_LIBRARIES ensures lst[j] == Bit(last[..], j) {
        BitsAt(last[..], j);
        BitsAt(before, j);
      }
      assert current[..] == old(current[..]);
    }

    /** `clear_bitmask(all_headers_current)`, which starts a walk over the
        headers `all`: no module is seen yet. */
    method ClearCurrent(ghost all: set<Word>)
      requires Coupled() && Registered(all)
      modifies this`cur, current
      ensures Walk(all, {}) && cur == NoBits()
    {
      ClearBitmask(current);
      cur := NoBits();
      forall j | 0 <= j < NUM_LIBRARIES ensures cur[j] == Bit(current[..], j) {
        BitsAt(current[..], j);
      }
      assert last[..] == old(last[..]);
    }

    /** `get_next_free_bitmask(all_headers_last, -1)`. */
    method FreeSlot() returns (k: int)
      requires Coupled()
      ensures k == NextWith(lst, -1, false)
    {
      k := GetNextFree(last, -1);
      forall j | 0 <= j < NUM_LIBRARIES ensures Bits(last[..])[j] == lst[j] {
        BitsAt(last[..], j);
      }
      assert Bits(last[..]) == lst;
    }

    /** `get_next_set_bitmask(all_headers_current, i)`, from -1 or from a slot
        it returned. */
    method NextCurrent(i: int) returns (k: int)
      requires Coupled() && -1 <= i < NUM_LIBRARIES && (i == -1 || cur[i])
      ensures k == NextWith(cur, i, true)
    {
      forall j | 0 <= j < NUM_LIBRARIES ensures Bits(current[..])[j] == cur[j] {
        BitsAt(current[..], j);
      }
      assert Bits(current[..]) == cur;
      k := GetNextSet(current, i);
    }

    // -------------------------------------------------------------------------
    // The walk

    /** `parse_link_map`: classify one module and register its header on first
        sighting. `all` and `seen` describe the walk this call is part of: the
        headers of the whole list, and those of the modules visited before. */
    method ParseLinkMap(m: LinkMap, ghost all: set<Word>, ghost seen: set<Word>)
      returns (res: ParseResult)
      requires Walk(all, seen) && Loadable(m, headers) && HeaderOf(m, headers) <= all
      modifies this, current, last, slots
      ensures Valid() && Registered(all) && SameShape(old(headers), headers)
      ensures res != Aborted ==> SeenExactly(seen + HeaderOf(m, old(headers)))
      // only the module's own header may change, and only on first sighting
      ensures forall a :: a in old(headers) && (a !in HeaderOf(m, old(headers)) || old(headers)[a].pos != -1) ==>
        headers[a] == old(headers)[a]
      ensures res != ErrorFull
      ensures m.lLd.None? ==> res == ErrorInternal
      ensures m.lLd.Some? && TaggedAddr(m).None? ==> res == NotRewritten
      ensures TaggedAddr(m).Some? && old(headers)[TaggedAddr(m).value].signature != TRAP_HEADER_SIG ==>
        res == ErrorInternal
      ensures HeaderOf(m, old(headers)) == {} <==> res == NotRewritten || res == ErrorInternal
      ensures HeaderOf(m, old(headers)) == {} ==> unchanged(this, current, last, slots)
      ensures res == AlreadyParsed <==> HeaderOf(m, old(headers)) != {} && !NewHeader(m, old(headers))
      // a header met before: only its own bit of `current` is set
      ensures res == AlreadyParsed ==>
        TaggedAddr(m).Some? && 0 <= old(headers)[TaggedAddr(m).value].pos < NUM_LIBRARIES &&
        cur == old(cur)[old(headers)[TaggedAddr(m).value].pos := true] &&
        lst == old(lst) && headers == old(headers) && unchanged(slots)
      // the only abort: a new header and no slot free in `last`
      ensures res == Aborted <==> NewHeader(m, old(headers)) && NextWith(old(lst), -1, false) == NUM_LIBRARIES
      // a new header is relocated by `l_addr`
      ensures NewHeader(m, old(headers)) ==>
        var a := TaggedAddr(m).value;
        var h := old(headers)[a];
        headers[a].traps == RelocateAll(h.traps, m.lAddr) &&
        headers[a].lowEntry == LowEntry(h.lowEntry, headers[a].traps) &&
        headers[a].highEntry == HighEntry(h.highEntry, headers[a].traps)
      // and takes the lowest slot free in `last`
      ensures res == Parsed ==>
        NewHeader(m, old(headers)) &&
        var a, k := TaggedAddr(m).value, NextWith(old(lst), -1, false);
        k < NUM_LIBRARIES && headers[a].pos == k && slots[k] == a && SlotsKept(k) &&
        cur == old(cur)[k := true] && lst == old(lst)[k := true]
      ensures res != Parsed ==> lst == old(lst) && forall a :: a in old(headers) ==> headers[a].pos == old(headers)[a].pos
    {
      var addr;
      res, addr := LocateHeader(m);
      if addr.None? {
        return;
      }
      res := Register(addr.value, m.lAddr, all, seen);
    }

    /** The first half of `parse_link_map`: find the module's DT_DYNINST entry
        before DT_NULL and check the signature of the header it points at.
        `addr` is None when the module is not a rewritten one, and `res` is
        then what `parse_link_map` returns. */
    method LocateHeader(m: LinkMap) returns (res: ParseResult, addr: Option<Word>)
      requires Loadable(m, headers)
      ensures addr.None? <==> HeaderOf(m, headers) == {}
      ensures addr.Some? ==> addr == TaggedAddr(m) && HeaderOf(m, headers) == {addr.value}
      ensures m.lLd.None? ==> res == ErrorInternal
      ensures m.lLd.Some? && TaggedAddr(m).None? ==> res == NotRewritten
      ensures TaggedAddr(m).Some? && headers[TaggedAddr(m).value].signature != TRAP_HEADER_SIG ==>
        res == ErrorInternal
    {
      if m.lLd.None? {
        return ErrorInternal, None;
      }
      var dyn := m.lLd.value;
      var k := ScanDynamic(dyn);
      if dyn[k].tag == DT_NULL {
        return NotRewritten, None;
      }
      var a := AddWrap(dyn[k].val, m.lAddr);
      if headers[a].signature != TRAP_HEADER_SIG {
        return ErrorInternal, None;
      }
      return Parsed, Some(a);
    }

    /** The second half of `parse_link_map`, for the header at `a` of a module
        loaded with bias `bias`: a header met before is only marked current; a
        new one is relocated and given a slot. */
    method Register(a: Word, bias: Word, ghost all: set<Word>, ghost seen: set<Word>)
      returns (res: ParseResult)
      requires Walk(all, seen) && a in all
      modifies this, current, last, slots
      ensures Valid() && Registered(all) && SameShape(old(headers), headers)
      ensures res != Aborted ==> SeenExactly(seen + {a})
      ensures forall b :: b in old(headers) && b != a ==> headers[b] == old(headers)[b]
      ensures old(headers)[a].pos != -1 ==>
        res == AlreadyParsed && headers == old(headers) &&
        cur == old(cur)[old(headers)[a].pos := true] && lst == old(lst) && unchanged(slots)
      ensures old(headers)[a].pos == -1 ==> res == Parsed || res == Aborted
      // the only abort: a new header and no slot free in `last`
      ensures res == Aborted <==> old(headers)[a].pos == -1 && NextWith(old(lst), -1, false) == NUM_LIBRARIES
      // a new header is relocated by the load bias, whether or not a slot is found
      ensures old(headers)[a].pos == -1 ==>
        var h := old(headers)[a];
        headers[a].traps == RelocateAll(h.traps, bias) &&
        headers[a].lowEntry == LowEntry(h.lowEntry, headers[a].traps) &&
        headers[a].highEntry == HighEntry(h.highEntry, headers[a].traps)
      // and takes the lowest slot free in `last`
      ensures res == Parsed ==>
        var k := NextWith(old(lst), -1, false);
        k < NUM_LIBRARIES && headers[a].pos == k && slots[k] == a && SlotsKept(k) &&
        cur == old(cur)[k := true] && lst == old(lst)[k := true]
      ensures res != Parsed ==> lst == old(lst) && headers[a].pos == old(headers)[a].pos
    {
      if headers[a].pos != -1 {
        MarkSeen(a, all, seen);
        return AlreadyParsed;
      }
      res := FirstSighting(a, bias, all, seen);
    }

    /** A header that already has a slot is only marked in `current`; the
        source asserts that its slot still holds it. */
    method MarkSeen(a: Word, ghost all: set<Word>, ghost seen: set<Word>)
      requires Walk(all, seen) && a in all && headers[a].pos != -1
      modifies this`cur, current
      ensures Walk(all, seen + {a})
      ensures cur == old(cur)[headers[a].pos := true]
    {
      MarkCurrent(headers[a].pos);
    }

    /** First sighting of the header at `a`: relocate it by `bias`, then take
        the lowest slot free in `last`. When there is none the source's
        assertion aborts the process. */
    method FirstSighting(a: Word, bias: Word, ghost all: set<Word>, ghost seen: set<Word>)
      returns (res: ParseResult)
      requires Walk(all, seen) && a in all && headers[a].pos == -1
      modifies this, current, last, slots
      ensures Valid() && Registered(all) && SameShape(old(headers), headers)
      ensures res != Aborted ==> SeenExactly(seen + {a})
      ensures forall b :: b in old(headers) && b != a ==> headers[b] == old(headers)[b]
      ensures var h := old(headers)[a];
        headers[a].traps == RelocateAll(h.traps, bias) &&
        headers[a].lowEntry == LowEntry(h.lowEntry, headers[a].traps) &&
        headers[a].highEntry == HighEntry(h.highEntry, headers[a].traps)
      ensures var k := NextWith(old(lst), -1, false);
        if k == NUM_LIBRARIES then
          res == Aborted && headers[a].pos == -1 &&
          cur == old(cur) && lst == old(lst) && unchanged(slots)
        else
          res == Parsed && headers[a].pos == k && slots[k] == a && SlotsKept(k) &&
          cur == old(cur)[k := true] && lst == old(lst)[k := true]
    {
      var relocated := Relocate(headers[a], bias);
      res := RegisterNew(a, relocated, all, seen);
    }

    /** Give the relocated header `h` of `a` the lowest slot free in `last`
        and write it back; without a free slot the process aborts, the
        relocated header written back. */
    method RegisterNew(a: Word, h: TrapHeader, ghost all: set<Word>, ghost seen: set<Word>)
      returns (res: ParseResult)
      requires Walk(all, seen) && a in all && headers[a].pos == -1
      requires h.pos == -1 && h.signature == headers[a].signature
      modifies this, current, last, slots
      ensures Valid() && Registered(all) && SameShape(old(headers), headers)
      ensures res != Aborted ==> SeenExactly(seen + {a})
      ensures headers == old(headers)[a := h.(pos := headers[a].pos)]
      ensures var k := NextWith(old(lst), -1, false);
        if k == NUM_LIBRARIES then
          res == Aborted && headers[a].pos == -1 &&
          cur == old(cur) && lst == old(lst) && unchanged(slots)
        else
          res == Parsed && headers[a].pos == k && slots[k] == a && SlotsKept(k) &&
          cur == old(cur)[k := true] && lst == old(lst)[k := true]
    {
      var newPos := FreeSlot();
      if newPos == NUM_LIBRARIES {
        // the assertion `new_pos >= 0 && new_pos < NUM_LIBRARIES` fails: abort
        Store(a, h, all, seen);
        return Aborted;
      }
      Assign(a, h, newPos, all, seen);
      return Parsed;
    }

    /** Write back a header that has no slot, its `pos` still -1: no marked
        slot refers to it, so the walk is undisturbed. */
    method Store(a: Word, h: TrapHeader, ghost all: set<Word>, ghost seen: set<Word>)
      requires Walk(all, seen) && a in all && headers[a].pos == -1
      requires h.pos == -1 && h.signature == headers[a].signature
      modifies this`headers
      ensures Walk(all, seen) && headers == old(headers)[a := h]
    {
      headers := headers[a := h];
      assert forall b :: b in seen ==> b != a;
      forall k {:trigger cur[k]} | 0 <= k < NUM_LIBRARIES && cur[k]
        ensures slots[k] in headers && headers[slots[k]].pos == k
      {
        assert old(headers[slots[k]].pos) == k;
      }
    }

    /** The registration step of `parse_link_map`: record the relocated header
        `h` of `a` in the free slot `k` and mark `k` in both bit sets. */
    method Assign(a: Word, h: TrapHeader, k: int, ghost all: set<Word>, ghost seen: set<Word>)
      requires Walk(all, seen) && a in all && headers[a].pos == -1
      requires h.pos == -1 && h.signature == headers[a].signature
      requires 0 <= k < NUM_LIBRARIES && !lst[k]
      modifies this, current, last, slots
      ensures Walk(all, seen + {a})
      ensures headers == old(headers)[a := h.(pos := k)]
      ensures slots[k] == a && SlotsKept(k)
      ensures cur == old(cur)[k := true] && lst == old(lst)[k := true]
    {
      headers := headers[a := h.(pos := k)];
      slots[k] := a;
      MarkCurrent(k);
      MarkLast(k);
      forall j {:trigger cur[j]} | 0 <= j < NUM_LIBRARIES && cur[j]
        ensures slots[j] in headers && headers[slots[j]].pos == j
      {
        if j != k {
          assert old(cur[j]);
          assert old(headers[slots[j]].pos) == j && old(slots[j]) != a;
        }
      }
      forall b {:trigger b in all} | b in all && headers[b].pos != -1
        ensures 0 <= headers[b].pos < NUM_LIBRARIES && lst[headers[b].pos] && slots[headers[b].pos] == b
      {
        if b != a {
          assert old(lst)[headers[b].pos];
        }
      }
      assert forall b :: b in seen ==> b != a;
    }

    /** `clear_unloaded_libs`: copy `current` into `last`, word for word. A slot
        of a module that was not seen in this walk becomes free. */
    method ClearUnloadedLibs(ghost seen: set<Word>)
      requires Valid() && SeenExactly(seen)
      modifies this`lst, last
      ensures Valid() && SeenExactly(seen)
      ensures last[..] == current[..]
      ensures lst == cur
    {
      var i := 0;
      while i < BITMASK_SIZE
        invariant 0 <= i <= BITMASK_SIZE
        invariant forall j :: 0 <= j < i ==> last[j] == current[j]
        invariant current[..] == old(current[..])
      {
        last[i] := current[i];
        i := i + 1;
      }
      assert last[..] == current[..];
      lst := cur;
    }

    /** `parse_libs`: walk the loader's list. `current` is rebuilt from scratch,
        each module is classified and registered, then `last` takes the value of
        `current`. A registered header met in the walk must have been seen in
        the previous walk (its module stayed loaded): that is what the source's
        assertion that its slot still holds it relies on. */
    method ParseLibs(list: seq<LinkMap>) returns (res: RefreshResult)
      requires Coupled() && AllLoadable(list, headers) && Registered(Rewritten(list, headers))
      modifies this, current, last, slots
      ensures Coupled() && SameShape(old(headers), headers)
      ensures list != [] ==> Valid()
      ensures list == [] <==> res == NoLinkMap
      ensures list == [] ==> unchanged(this, current, last, slots)
      ensures res == Refreshed ==> RefreshedFrom(list, old(headers), old(lst))
      // the walk halts exactly when the headers of the list that still need a
      // slot outnumber the slots free in `last`; `last` is then full
      ensures res == Halted <==>
        list != [] && NUM_LIBRARIES < |Used(old(lst))| + |Pending(Rewritten(list, old(headers)), old(headers))|
      ensures res == Halted ==> Full()
      ensures |Used(old(lst))| + |list| <= NUM_LIBRARIES ==> res != Halted
    {
      if |list| == 0 {
        return NoLinkMap;
      }
      ghost var all := Rewritten(list, headers);
      PendingAtMost(list, headers);
      ClearCurrent(all);
      ghost var mem0 := headers;
      var completed := WalkList(list, all);
      if !completed {
        return Halted;
      }
      ghost var lw := lst;
      ClearUnloadedLibs(all);
      RefreshDone(list, mem0, old(lst), lw);
      return Refreshed;
    }

    /** What a refresh over `list` leaves, against the headers `mem0` and the
        slots `lst0` reserved in `last` before it. */
    ghost predicate RefreshedFrom(list: seq<LinkMap>, mem0: HeaderMemory, lst0: seq<bool>)
      reads this, slots, current, last
    {
      AllLoadable(list, mem0) && |lst0| == NUM_LIBRARIES && Valid() &&
      // `last` equals `current`
      lst == cur &&
      // every rewritten module of the list is registered and marked current,
      // and nothing else is marked current
      SeenExactly(Rewritten(list, mem0)) &&
      // a registered header keeps its slot and is not relocated again, and the
      // headers of modules outside the list are left alone
      KeptSince(mem0, Rewritten(list, mem0)) &&
      // every header of the list that had no slot is newly registered
      forall a :: a in Pending(Rewritten(list, mem0), mem0) ==> NewlyRegistered(list, mem0, lst0, a)
    }

    /** Header `a` was relocated by the load bias of a module of `list` that
        points at it, and took a slot free in `lst0`; every slot free in
        `lst0` below it went to another header of the list that had no slot. */
    ghost predicate NewlyRegistered(list: seq<LinkMap>, mem0: HeaderMemory, lst0: seq<bool>, a: Word)
      reads this, slots, current, last
      requires AllLoadable(list, mem0) && |lst0| == NUM_LIBRARIES && Valid() && a in mem0
    {
      a in headers && 0 <= headers[a].pos < NUM_LIBRARIES && !lst0[headers[a].pos] &&
      (exists i :: 0 <= i < |list| && TaggedAddr(list[i]) == Some(a) && Relocated(mem0[a], headers[a], list[i].lAddr)) &&
      forall j :: 0 <= j < headers[a].pos && !lst0[j] ==> cur[j] && slots[j] in Pending(Rewritten(list, mem0), mem0)
    }

    /** The end of `parse_libs`: a completed walk, with `last` now a copy of
        `current`, is a refresh. `lw` is `last` as the walk left it. */
    lemma RefreshDone(list: seq<LinkMap>, mem0: HeaderMemory, lst0: seq<bool>, lw: seq<bool>)
      requires AllLoadable(list, mem0) && |lst0| == NUM_LIBRARIES && |lw| == NUM_LIBRARIES
      requires Valid() && lst == cur && SeenExactly(Rewritten(list, mem0)) && KeptSince(mem0, Rewritten(list, mem0))
      requires Pending(Rewritten(list, mem0), headers) == {}
      requires RelocatedBy(list, |list|, mem0, Rewritten(list, mem0), headers)
      requires FreshSlots(lst0, lw, cur, mem0, Rewritten(list, mem0), headers)
      ensures RefreshedFrom(list, mem0, lst0)
    {
      var all := Rewritten(list, mem0);
      WalkRelocates(list, mem0, all, headers);
      forall a | a in Pending(all, mem0) ensures NewlyRegistered(list, mem0, lst0, a) {
        assert LowestFree(lst0, lw, headers, a);
        assert a !in Pending(all, headers);
        forall j | 0 <= j < headers[a].pos && !lst0[j]
          ensures cur[j] && slots[j] in Pending(all, mem0)
        {
          var b :| b in Pending(all, mem0) && b in headers && headers[b].pos == j;
        }
      }
    }

    /** The headers of `mem0` that are registered, or that are not among
        `all`, are as they were in `mem0`. */
    ghost predicate KeptSince(mem0: HeaderMemory, all: set<Word>)
      reads this
    {
      forall a :: a in mem0 && (mem0[a].pos != -1 || a !in all) ==> a in headers && headers[a] == mem0[a]
    }

    /** The loop of `parse_libs`: `parse_link_map` on every module of the list
        in order, from an empty `current`. It stops early only when a new header
        finds no free slot. */
    method WalkList(list: seq<LinkMap>, ghost all: set<Word>) returns (completed: bool)
      requires Walk(all, {}) && AllLoadable(list, headers) && all == Rewritten(list, headers)
      modifies this, current, last, slots
      ensures Valid() && SameShape(old(headers), headers)
      ensures completed ==> Walk(all, all) && KeptSince(old(headers), all)
      ensures !completed ==> Full() && NUM_LIBRARIES < old(Demand(all))
      ensures completed ==> old(Demand(all)) <= NUM_LIBRARIES && Pending(all, headers) == {}
      ensures completed ==> RelocatedBy(list, |list|, old(headers), all, headers)
      ensures completed ==> FreshSlots(old(lst), lst, cur, old(headers), all, headers)
    {
      ghost var mem0, lst0 := headers, lst;
      ghost var need := Demand(all);
      assert list[..0] == [];
      var i := 0;
      while i < |list|
        invariant 0 <= i <= |list|
        invariant SameShape(mem0, headers) && Walk(all, Rewritten(list[..i], mem0)) && KeptSince(mem0, all)
        invariant Demand(all) == need && RelocatedBy(list, i, mem0, all, headers)
        invariant FreshSlots(lst0, lst, cur, mem0, all, headers)
      {
        var aborted := VisitModule(list, i, all, mem0, need, lst0);
        if aborted {
          return false;
        }
        i := i + 1;
      }
      CompletedDemand(list, all, mem0);
      return true;
    }

    /** Once every header of `all` is current, none is pending, so the demand
        is the number of used slots, which is at most `NUM_LIBRARIES`. */
    lemma CompletedDemand(list: seq<LinkMap>, all: set<Word>, mem0: HeaderMemory)
      requires AllLoadable(list, mem0) && all == Rewritten(list, mem0)
      requires Walk(all, Rewritten(list[..|list|], mem0))
      ensures Walk(all, all) && Demand(all) <= NUM_LIBRARIES && Pending(all, headers) == {}
    {
      assert list[..|list|] == list;
      NonePending(all, headers);
      NoFreeSlot(lst);
    }

    /** One step of the walk: `parse_link_map` on module `i`, after which the
        headers of the modules up to `i` are exactly the ones marked current. */
    method VisitModule(list: seq<LinkMap>, i: int, ghost all: set<Word>, ghost mem0: HeaderMemory, ghost need: int,
                       ghost lst0: seq<bool>)
      returns (aborted: bool)
      requires 0 <= i < |list| && AllLoadable(list, mem0) && all == Rewritten(list, mem0)
      requires SameShape(mem0, headers) && Walk(all, Rewritten(list[..i], mem0)) && KeptSince(mem0, all)
      requires Demand(all) == need && RelocatedBy(list, i, mem0, all, headers)
      requires |lst0| == NUM_LIBRARIES && FreshSlots(lst0, lst, cur, mem0, all, headers)
      modifies this, current, last, slots
      ensures Valid() && SameShape(mem0, headers)
      ensures !aborted ==> Walk(all, Rewritten(list[..i + 1], mem0)) && KeptSince(mem0, all)
      ensures !aborted ==> RelocatedBy(list, i + 1, mem0, all, headers)
      ensures !aborted ==> FreshSlots(lst0, lst, cur, mem0, all, headers)
      // each slot taken from `last` is one header fewer waiting for a slot
      ensures !aborted ==> Demand(all) == need
      ensures aborted ==> Full() && NUM_LIBRARIES < need
    {
      RewrittenContains(list, mem0, i);
      RewrittenPrefix(list, mem0, i);
      HeaderOfShape(list[i], mem0, headers);
      ghost var h0, l1, c1 := headers, lst, cur;
      var r := ParseCounted(list[i], all, Rewritten(list[..i], mem0), need);
      aborted := r == Aborted;
      if !aborted {
        RelocationStep(list, i, mem0, all, h0, headers);
        FreshStep(list[i], lst0, mem0, all, l1, c1, h0, lst, cur, headers);
      }
    }

    /** `parse_link_map` within a walk, with the count of slots the walk
        needs: it is kept, and exceeds the slots when the call aborts. */
    method ParseCounted(m: LinkMap, ghost all: set<Word>, ghost seen: set<Word>, ghost need: int)
      returns (res: ParseResult)
      requires Walk(all, seen) && Loadable(m, headers) && HeaderOf(m, headers) <= all
      requires Demand(all) == need
      modifies this, current, last, slots
      ensures Valid() && Registered(all) && SameShape(old(headers), headers)
      ensures res != Aborted ==> SeenExactly(seen + HeaderOf(m, old(headers)))
      ensures forall a :: a in old(headers) && (a !in HeaderOf(m, old(headers)) || old(headers)[a].pos != -1) ==>
        headers[a] == old(headers)[a]
      ensures res != Aborted ==> Demand(all) == need
      ensures res == Aborted ==> Full() && NUM_LIBRARIES < need
      ensures res != Aborted && NewHeader(m, old(headers)) ==>
        var a := TaggedAddr(m).value;
        headers[a].pos != -1 && Relocated(old(headers)[a], headers[a], m.lAddr)
      // the slot a new header takes; a call that registers nothing leaves the
      // slots and `last` alone
      ensures res != Aborted ==> forall k :: 0 <= k < NUM_LIBRARIES && old(cur)[k] ==> cur[k]
      ensures res != Aborted && NewHeader(m, old(headers)) ==>
        var a, k := TaggedAddr(m).value, NextWith(old(lst), -1, false);
        k < NUM_LIBRARIES && headers[a].pos == k && cur[k] && lst == old(lst)[k := true]
      ensures !NewHeader(m, old(headers)) ==> lst == old(lst)
    {
      ghost var h0, l0 := headers, lst;
      res := ParseLinkMap(m, all, seen);
      if res == Parsed {
        SlotTaken(all, h0, headers, TaggedAddr(m).value, l0, NextWith(l0, -1, false));
      } else {
        assert Pending(all, headers) == Pending(all, h0);
        if res == Aborted {
          NoFreeSlot(l0);
          assert TaggedAddr(m).value in Pending(all, headers);
        }
      }
    }

    // -------------------------------------------------------------------------
    // Lookup

    /** The scan of `getStaticTrapMap`: visit the slots marked in `current` in
        ascending order and stop at the first header whose bounds contain
        `addr`; None when there is none. */
    method Lookup(addr: Word) returns (r: Option<Word>)
      requires Valid()
      ensures r.None? <==> forall k {:trigger cur[k]} :: 0 <= k < NUM_LIBRARIES && cur[k] ==> !Covers(headers[slots[k]], addr)
      ensures r.Some? ==> exists k :: OwnerSlot(k, addr) && slots[k] == r.value
    {
      var i := -1;
      while true
        invariant -1 <= i < NUM_LIBRARIES
        invariant i == -1 || cur[i]
        invariant forall j {:trigger cur[j]} :: 0 <= j <= i && cur[j] ==> !Covers(headers[slots[j]], addr)
        decreases NUM_LIBRARIES - i
      {
        NextWithSkips(cur, i, true);
        i := NextCurrent(i);
        if i == NUM_LIBRARIES {
          return None;
        }
        var header := headers[slots[i]];
        if addr >= header.lowEntry && addr <= header.highEntry {
          assert OwnerSlot(i, addr);
          return Some(slots[i]);
        }
      }
    }

    /** `getStaticTrapMap`: refresh the registry from the loader's list, then
        look `addr` up. The lock around both is left out: access is exclusive. */
    method GetStaticTrapMap(list: seq<LinkMap>, addr: Word) returns (halted: bool, r: Option<Word>)
      requires Coupled() && AllLoadable(list, headers) && Registered(Rewritten(list, headers))
      // with an empty list nothing is refreshed and the scan reads the current
      // slots as the previous walk left them
      requires list == [] ==> Valid()
      modifies this, current, last, slots
      ensures Valid() && SameShape(old(headers), headers)
      ensures halted <==>
        list != [] && NUM_LIBRARIES < |Used(old(lst))| + |Pending(Rewritten(list, old(headers)), old(headers))|
      ensures halted ==> Full()
      ensures |Used(old(lst))| + |list| <= NUM_LIBRARIES ==> !halted
      // the refresh's guarantees hold for the registry the scan reads
      ensures !halted && list != [] ==> RefreshedFrom(list, old(headers), old(lst))
      ensures !halted ==>
        (r.None? <==> forall k {:trigger cur[k]} :: 0 <= k < NUM_LIBRARIES && cur[k] ==> !Covers(headers[slots[k]], addr))
      ensures !halted && r.Some? ==> exists k :: OwnerSlot(k, addr) && slots[k] == r.value
      ensures !halted && list != [] && r.Some? ==> r.value in Rewritten(list, old(headers))
    {
      var refreshed := ParseLibs(list);
      halted := refreshed == Halted;
      if halted {
        return halted, None;
      }
      r := Lookup(addr);
    }
  }
}
